=== FILE: README.md ===
# Storefront pages, modelled in Dafny

This project models the behaviour of a small storefront. The storefront is a
single-page shop for zero-proof spirits with a blog. The model covers:

- **The blog article page** (`BlogPost`, `BlogContent`). The page has a
  `loading` / `notFound` / `blog` state. The content query sets it for the
  route's slug. The article body interleaves the article's extra pictures
  with its HTML paragraphs. The split-and-interleave loop is kept as a
  method with loop invariants. It is proved equal to a recursive
  specification, and the placement properties are proved about that
  specification. The specification takes each piece's slot from a
  sequence, `Slots`, built from the code's formula. Most placement
  properties hold for any slot sequence; ordering needs the slots to be
  ascending, which the formula is proved to be.
- **The product card** (`ProductCard`). It covers:
  - the description, with HTML tags stripped;
  - the option-value buttons: which values are offered, which one is chosen
    or faded, and when a colour swatch replaces a text button;
  - the compare-at price and the badges;
  - the add button.

  The headless product logic behind the card is an input (`CardLogic`).
- **The cart sidebar** (`CartSidebar`). It covers:
  - row prices, with the variant price taking precedence;
  - row titles;
  - the requests the row controls send to the cart store;
  - the empty and filled views;
  - the checkout button.

  It also covers the checkout hand-off. That is a class holding session
  storage and the sequence of observable effects. It saves a cart snapshot,
  calls the checkout, saves the order and its identifier, closes the
  sidebar and navigates to the checkout.
- **The floating cart button and the page template's header**
  (`FloatingCart`, `EcommerceTemplate`). This covers when each is shown and
  their badges, which are capped at "99+". The cap is written out twice, as
  in the code, and the two rules are proved to agree.

Shared vocabulary lives in `JsText`: `Option`, truthiness, subsequences,
`split`/`join` on a literal separator, `trim`, ASCII `toLowerCase` and
`String(n)`. `Catalog` holds the product, variant and line-item records and
the image rule shared by the card and the cart.

Money is in integer cents. A price the backend may leave null is an
`Option<int>`. The checkout's outcome, the content query's answer, the
cart store's items and total, and the storage writes that fail are all
parameters.

## Model

| member | source | states |
|---|---|---|
| JsText.SplitJoin | src/pages/BlogPost.tsx:67 | splitting the content on the closing paragraph tag loses nothing: joining the pieces with the tag gives the content back |
| JsText.SplitPiecesFree | src/pages/BlogPost.tsx:67 | no piece of the split contains the closing tag |
| JsText.TrimEmptyIffBlank | src/pages/BlogPost.tsx:72 | a piece's trimmed text is falsy exactly when the piece is all whitespace |
| JsText.ToLower | src/components/ui/ProductCardUI.tsx:83 | lower-casing keeps the length and lower-cases each ASCII letter in place |
| JsText.DecimalRoundTrip | src/components/FloatingCart.tsx:24 | the decimal digits of a count read back as that count |
| JsText.DecimalLength | src/components/FloatingCart.tsx:24 | a count below 100 takes at most two digits, and a larger one takes at least three |
| Catalog.ImageChoice | src/components/ui/ProductCardUI.tsx:33-35 | the picture is the variant's image when truthy, otherwise the product's first image, otherwise none (the cart row's picture, `CartSidebar.RowOf`, is computed by this same function) |
| BlogContent.FindImage | src/pages/BlogPost.tsx:79 | the linear search finds an image block with a given slot exactly when one exists |
| BlogContent.Render | src/pages/BlogPost.tsx:60-94 | the content stays one untouched block exactly when the image list is missing or has at most one image; otherwise it is split into blocks |
| BlogContent.RenderContentWithImages | src/pages/BlogPost.tsx:60-94 | the loop's result equals the recursive rendering; the content stays one untouched block exactly when there is at most one image |
| BlogContent.SlotBounded | src/pages/BlogPost.tsx:78 | a piece's slot never exceeds the number of extra images |
| BlogContent.SlotMonotone | src/pages/BlogPost.tsx:78 | a later piece never gets an earlier slot |
| BlogContent.SlotCovers | src/pages/BlogPost.tsx:78 | when there are no more extra images than pieces, every slot from 1 to their number is some piece's slot |
| BlogContent.InterleaveShape | src/pages/BlogPost.tsx:71-91 | every paragraph block is a kept piece with the tag re-appended; every image block shows extra image slot−1 and directly follows the paragraph whose slot it is |
| BlogContent.InterleaveOrdered | src/pages/BlogPost.tsx:71-91 | paragraphs come in piece order; image slots strictly increase, so no picture is shown twice |
| BlogContent.InterleaveComplete | src/pages/BlogPost.tsx:78-89 | a kept piece whose slot is in range has that slot's image among the blocks |
| BlogContent.ParagraphsKept | src/pages/BlogPost.tsx:71-76 | the paragraphs shown are exactly the non-blank pieces, in order, each closed again |
| BlogContent.RenderBlocks | src/pages/BlogPost.tsx:60-94 | for two or more images the body is blocks whose paragraphs are the non-blank pieces; each image follows a paragraph and slot k shows images[k]; slots increase |
| BlogContent.LastImageNeverShown | src/pages/BlogPost.tsx:78-79 | as written, every shown slot is below the number of extra images, so the last picture never appears; with exactly two pictures no image is inserted |
| BlogContent.DroppedImageExample | src/pages/BlogPost.tsx:66-91 | for content "a</p>b" and three pictures, the body shows the second picture and loses the third |
| BlogContent.KeptPiecesInOrder | src/pages/BlogPost.tsx:71-76 | the kept pieces are exactly the non-blank pieces, in order: closed again with the tag, they are the paragraphs the page shows |
| BlogContent.ShowsImageIff | src/pages/BlogPost.tsx:79 | an image block for slot k with a given picture is found by the recursive search exactly when it sits at some index, and then the key search finds slot k too |
| BlogContent.IntendedShowsEveryImage | src/pages/BlogPost.tsx:78-83 | with slots spread over the non-blank paragraphs and the last slot allowed, every extra picture k is shown with images[k], once each and in order, given enough paragraphs |
| BlogPost.Article | src/pages/BlogPost.tsx:163-199 | the article has the blog's title; a featured picture exactly when there are images, and then the first one; the excerpt exactly when truthy; a body exactly when the content is truthy, rendered from the content and the images as written |
| BlogPost.ArticleDropsLastPicture | src/pages/BlogPost.tsx:163-199 | as written, with two or more pictures the body shows only pictures 1 to n−2, each right after a paragraph and in increasing slot order, and never the last one |
| BlogPost.ArticleShowsEveryPicture | src/pages/BlogPost.tsx:163-199 | with the corrected body rendering, the article shows its first picture as the featured image and each other picture in the body, given enough non-blank paragraphs |
| BlogPost.BlogPostPage.View | src/pages/BlogPost.tsx:96-150 | the loading skeleton exactly while loading; then the not-found card exactly when "not found" is set or there is no article; otherwise the article |
| BlogPost.BlogPostPage.constructor | src/pages/BlogPost.tsx:12-14 | the page starts loading, not "not found", with no article |
| BlogPost.BlogPostPage.FetchBlog | src/pages/BlogPost.tsx:27-50 | the query is made for the slug; a row becomes the article; an error or a throw sets "not found"; loading ends in every case |
| BlogPost.BlogPostPage.OnSlug | src/pages/BlogPost.tsx:18-25 | a missing or empty slug ends loading as "not found" without a query; otherwise the article is fetched |
| BlogPost.BlogPostPage.OnSlugReset | src/pages/BlogPost.tsx:18-25 | with the flags reset first, the page shows what a first visit with that slug and answer shows |
| BlogPost.Visit | src/pages/BlogPost.tsx:18-50 | a first visit never stays loading, shows the article exactly when the slug is truthy and the row came back, and queries at most that slug |
| BlogPost.StaleNotFound | src/pages/BlogPost.tsx:18-25 | as written, after a slug that was not found, a later slug whose article exists is still shown as not found |
| BlogPost.Navigate | src/pages/BlogPost.tsx:18-25 | with the reset, what the page shows depends only on the latest slug and answer |
| ProductCard.TagLength | src/components/ui/ProductCardUI.tsx:70 | a tag at the start is a '<', then no '>', then the first '>' |
| ProductCard.StripKeepsOrder | src/components/ui/ProductCardUI.tsx:70 | stripping tags only removes characters; the rest keep their order |
| ProductCard.StripLeavesNoTag | src/components/ui/ProductCardUI.tsx:70 | after stripping, no '<' is followed by a '>' |
| ProductCard.TagFreeUnchanged | src/components/ui/ProductCardUI.tsx:70 | text without tags comes through unchanged |
| ProductCard.StripIdempotent | src/components/ui/ProductCardUI.tsx:70 | stripping twice is stripping once |
| ProductCard.PlainTextUnchanged | src/components/ui/ProductCardUI.tsx:70 | a description without '<' is shown as written |
| ProductCard.StripClosedTag | src/components/ui/ProductCardUI.tsx:70 | after text with no '<', a '<', text with no '>' and a '>' form one tag that is removed whole, and the rest is stripped on its own |
| ProductCard.StripBeforeNoClose | src/components/ui/ProductCardUI.tsx:70 | when no '>' follows, no tag reaches past the head: head and tail are stripped separately |
| ProductCard.UnclosedAngleKept | src/components/ui/ProductCardUI.tsx:70 | a '<' with no '>' after it is not a tag and stays, whatever comes before it; the text before it is stripped on its own |
| ProductCard.ShownDescription | src/components/ui/ProductCardUI.tsx:68-71 | the description paragraph appears exactly for a truthy description, as the description with its tags stripped; that text is tag-free and a subsequence of the description |
| ProductCard.VisibleValues | src/components/ui/ProductCardUI.tsx:81 | the offered values are exactly the values the availability test accepts, in their order |
| ProductCard.VisibleValuesCounts | src/components/ui/ProductCardUI.tsx:81 | the filter drops no occurrence: an accepted value is offered as many times as it occurs, any other value never |
| ProductCard.ValueLook | src/components/ui/ProductCardUI.tsx:82-113 | a value is chosen exactly when it is the option's selection; it is faded exactly when the option has some other truthy selection |
| ProductCard.LooksOfOneOption | src/components/ui/ProductCardUI.tsx:82-113 | all chosen buttons of an option show one value; once a value is selected every other value is faded; with no truthy selection nothing is faded |
| ProductCard.Swatch | src/components/ui/ProductCardUI.tsx:83-85 | a swatch is drawn exactly when the option's name lower-cases to "color" and its swatch for the value is truthy |
| ProductCard.SwatchIgnoresCase | src/components/ui/ProductCardUI.tsx:83 | whether an option gets swatches does not depend on the letter case of its name |
| ProductCard.ColourNames | src/components/ui/ProductCardUI.tsx:83 | "Color" and "COLOR" get swatches, "Colour" does not |
| ProductCard.ButtonFor | src/components/ui/ProductCardUI.tsx:85-121 | a value's button is a swatch exactly when it has a colour, and then shows that colour; it carries the value's look, its "name: value" label, and, as a text button, is pressed exactly when chosen |
| ProductCard.OptionRow | src/components/ui/ProductCardUI.tsx:77-122 | one button per offered value, in order |
| ProductCard.ShowCompareAt | src/components/ui/ProductCardUI.tsx:134 | the compare-at price is shown exactly when it is present, non-zero and above the price; a compare-at of 0 is never shown |
| ProductCard.CompareAtAbovePrice | src/components/ui/ProductCardUI.tsx:134 | for a non-negative price the rule is simply "above the price" |
| ProductCard.Badges | src/components/ui/ProductCardUI.tsx:46-62 | a discount badge first exactly for a truthy discount, "Featured" exactly when featured, "Out of stock" last exactly when out of stock, and no other badge |
| ProductCard.AddButtonFor | src/components/ui/ProductCardUI.tsx:140-150 | the button is disabled exactly when the product cannot be added; it reads "Add" exactly when in stock; a click reports success and then adds |
| ProductCard.LabelIndependentOfEnabled | src/components/ui/ProductCardUI.tsx:146-149 | an in-stock product that cannot be added shows a disabled "Add" |
| ProductCard.Card | src/components/ui/ProductCardUI.tsx:28-153 | the card links to the product page and shows the chosen picture, the badges, the product's title, the stripped description, each option's row of value buttons only when there are variants and options, the current price, the current compare-at price under its rule, and the add button |
| CartSidebar.VariantPriceWins | src/components/CartSidebar.tsx:143 | a variant's own price, zero included, decides the row total; the product's price then plays no part |
| CartSidebar.ProductPriceFallback | src/components/CartSidebar.tsx:143 | without a variant price the product's price is used, and with neither price the row total is zero |
| CartSidebar.RowTitle | src/components/CartSidebar.tsx:115 | the heading starts with the product title and is longer exactly when the variant title is truthy, which then follows after " - " |
| CartSidebar.RequestFor | src/components/CartSidebar.tsx:120-152 | each control's request names its own row's key; minus asks for one fewer, plus for one more, the bin for removal |
| CartSidebar.Sidebar | src/components/CartSidebar.tsx:77-178 | the empty-cart view exactly when there are no items; otherwise one row per item in order, the store's total as given, and a checkout button disabled and reading "Processing..." exactly while an order is created |
| CartSidebar.RowsAddUpToTotal | src/components/CartSidebar.tsx:143-167 | the rows add up to the total shown exactly when the store's total is the sum of the line totals |
| CartSidebar.CheckoutCalledOnce | src/components/CartSidebar.tsx:26-33 | the checkout is called exactly once, with the shop's currency, right after the cart snapshot is attempted |
| CartSidebar.NavigatesIffCreated | src/components/CartSidebar.tsx:31-56 | the page moves to the checkout exactly when an order was created, whatever storage writes failed; closing and navigating come last |
| CartSidebar.OrderIdAfterOrder | src/components/CartSidebar.tsx:39-45 | the order identifier is written only right after the order itself, as its decimal or text form |
| CartSidebar.SessionAfterHandOff | src/components/CartSidebar.tsx:26-45 | with every write succeeding, storage holds the snapshot, the order and its identifier; a rejected checkout leaves the order keys as they were and keeps the snapshot whose write succeeded |
| CartSidebar.EarlierOrderIdSurvives | src/components/CartSidebar.tsx:39-51 | when writing the order fails, an earlier order's identifier stays in storage while the page still moves to the checkout |
| CartSidebar.CheckoutHandOff.SetItem | src/components/CartSidebar.tsx:27 | a write succeeds unless its key fails, and then it stores the value and records the write |
| CartSidebar.CheckoutHandOff.SaveCreatedOrder | src/components/CartSidebar.tsx:39-45 | the order is written and then its identifier; a failed first write skips the second |
| CartSidebar.CheckoutHandOff.StartCheckout | src/components/CartSidebar.tsx:25-33 | the cart snapshot write is attempted and a failure swallowed, then the checkout is called with the shop's currency |
| CartSidebar.CheckoutHandOff.AfterCreated | src/components/CartSidebar.tsx:36-51 | after a created order: the order's writes, then the sidebar closes and the page moves to the checkout |
| CartSidebar.CheckoutHandOff.HandleCreateCheckout | src/components/CartSidebar.tsx:21-57 | the effects of a click are the hand-off's effects, and storage afterwards is what those effects leave behind |
| FloatingCart.Render | src/components/FloatingCart.tsx:11-26 | nothing is drawn for a count of zero; otherwise the button, with a badge exactly for a positive count |
| FloatingCart.BadgeLabelShape | src/components/FloatingCart.tsx:24 | for a positive count the badge reads "99+" exactly above 99; up to 99 it is one or two digits that read back as the count |
| FloatingCart.BadgeLabelInjective | src/components/FloatingCart.tsx:24 | distinct counts up to 99 get distinct badges |
| FloatingCart.BadgeAtCap | src/components/FloatingCart.tsx:24 | 99 is written out and 100 reads "99+" |
| EcommerceTemplate.ShowCart | src/templates/EcommerceTemplate.tsx:36 | an unset `showCart` means true |
| EcommerceTemplate.BadgeLabelsAgree | src/templates/EcommerceTemplate.tsx:95 | the header's badge rule and the floating cart's agree on every count |
| EcommerceTemplate.HeaderCartFor | src/templates/EcommerceTemplate.tsx:84-99 | the header cart button is present exactly when the cart is shown, with a badge exactly for a positive count |
| EcommerceTemplate.NavLinks | src/templates/EcommerceTemplate.tsx:56-77 | "Collections" appears, first, exactly when collections have loaded and exist; "Spirits" and "Blog" always end the list, and nothing else is in it |
| EcommerceTemplate.Template | src/templates/EcommerceTemplate.tsx:47-172 | the header's navigation and cart button, the page title exactly when truthy and then as given, and the floating cart mounted exactly when the cart is shown |
| EcommerceTemplate.CartEntryPointsAgree | src/templates/EcommerceTemplate.tsx:84-171 | the header button and the floating cart are mounted together; both are drawn exactly when the cart is shown and the count is not zero (with a count of zero the header button stays and the floating cart draws nothing); whenever either shows a badge, the other shows the same one |
| EcommerceTemplate.DefaultShowsCart | src/templates/EcommerceTemplate.tsx:36 | with `showCart` unset, the header button is shown and the floating cart is mounted, drawing its button exactly for a non-zero count |

The page's article view (`BlogPost.Article`) renders its body as written,
with `BlogContent.Render`; the method `BlogContent.RenderContentWithImages`
is the loop proved equal to it. `BlogContent.RenderIntended` and
`BlogPost.ArticleIntended` are the corrected rendering and the article
built on it, which the first finding below uses.

## Left out

- The content query, the checkout service (`useCheckout`) and the cart
  store (`useCart`: how quantities are updated, how the total and the item
  count are computed) are not part of this model. Their answers are inputs.
- The headless product logic (`HeadlessProductCard`: matching variant,
  stock, prices, availability, selection handling) is not part of this
  model. Its results are the fields of `ProductCard.CardLogic`.
- Money formatting (`formatMoney`, `toFixed(2)`) and floating-point
  arithmetic are left out. Prices are integer cents, and a `NaN` price is
  not represented.
- JSON serialisation of the stored cart and order is left out. Stored
  values are datatypes.
- Session storage failures are modelled as a fixed set of keys whose
  writes throw. A quota that depends on value sizes is not modelled.
- Console logging, date formatting (`toLocaleDateString`), HTML rendering
  and styling, and the sheet's open/close wiring are left out. So are the
  links to the cart and blog pages and the template's footer, logo and
  profile menu.
- Asynchrony is left out. A second click while a checkout is pending, and
  query answers arriving out of order when the slug changes quickly, are
  not modelled. Each effect runs to completion with its answer given.
- JsText.ToLower: lower-cases ASCII letters only. JavaScript's full Unicode
  case mapping is not modelled; the only comparison it feeds is against
  "color".
- ProductCard.Badges: a discount of exactly 0 shows no badge here. React
  would render the bare text "0" for that falsy number.
- ProductCard.Card: the price text and the discount figure are passed
  through as numbers, not formatted.
- The index page, collection cards, newsletter section, blog list page, the
  blog creation button and the blog helper are not part of this model.

## Findings

| source | as written | input that shows it | evidently intended | confidence | as-written member | corrected member |
|---|---|---|---|---|---|---|
| src/pages/BlogPost.tsx:78-79 | the slot `floor((index+1)·m/p)` is counted over all split pieces, including the usually blank piece after the last `</p>`, and only slots `0 < slot < m` are inserted | pictures `["f","x","y"]` with content `"a</p>b"`: the body shows `x` but never `y`; with exactly two pictures, the second is never shown | every picture after the featured one appears once in the body, spread over the non-blank paragraphs (slot `m` allowed) | high; not executed | BlogContent.LastImageNeverShown, BlogContent.DroppedImageExample, BlogPost.ArticleDropsLastPicture | BlogContent.IntendedShowsEveryImage, BlogPost.ArticleShowsEveryPicture |
| src/pages/BlogPost.tsx:18-25 | when the slug changes, the effect does not reset `loading`, `notFound` or `blog` before fetching again | visit a slug that is not found, then navigate to one whose article exists: the page still shows "not found" | each slug is shown afresh: loading, then the article or "not found" for that slug alone | medium (it depends on the route keeping the page mounted across slugs); not executed | BlogPost.StaleNotFound | BlogPost.Navigate |

=== FILE: blog_content.dfy ===
/**
 * The blog article body: `renderContentWithImages` interleaves the article's
 * extra featured images with its HTML paragraphs.
 *
 * The HTML is split on the closing paragraph tag; every piece that is not
 * blank is shown with the tag re-appended, and after the piece with index
 * `i` (of `p` pieces) the extra image for slot `(i + 1) * m / p` may follow,
 * where `m` is the number of extra images (all images but the first, which
 * the page already shows as the featured picture). Slot `k` shows extra image
 * `k - 1`, and a slot is shown at most once.
 */
module BlogContent {
  import opened JsText

  const ClosingTag: string := "</p>"

  /** One rendered block, identified as the page's React key identifies it. */
  datatype Elem =
    | Para(index: nat, html: string)  // key `paragraph-<index>`
    | Img(slot: nat, src: string)     // key `image-<slot>`

  /** Either the content as one untouched block, or the interleaved blocks */
  datatype Rendered = Whole(html: string) | Blocks(elems: seq<Elem>)

  /** A piece is shown when its trimmed text is non-empty (truthy). */
  predicate Kept(piece: string) {
    Trim(piece) != []
  }

  /** `Math.floor((index + 1) * m / p)` over non-negative integers */
  function Slot(index: nat, m: nat, p: nat): nat
    requires p > 0
  {
    (index + 1) * m / p
  }

  /** The slot of every piece, in piece order: entry `i` is `Slot(i, m, p)`. */
  function Slots(m: nat, p: nat): (slots: seq<nat>)
    requires p > 0
    ensures |slots| == p
  {
    seq(p, i requires 0 <= i => Slot(i, m, p))
  }

  /** Some block of `elems` is the image for slot `k` (`result.find` on its key) */
  predicate HasImage(elems: seq<Elem>, k: nat) {
    exists j :: 0 <= j < |elems| && elems[j].Img? && elems[j].slot == k
  }

  /**
   * The blocks produced after the first `n` pieces have been visited, piece
   * `i` having slot `slots[i]`. An image is inserted when `0 < slot < bound`
   * and its slot is not yet shown. The page uses `slots == Slots(|extra|,
   * |pieces|)` and `bound == |extra|`; `bound == |extra| + 1` is the variant
   * that can also show the last extra image.
   */
  function Interleave(pieces: seq<string>, extra: seq<string>, slots: seq<nat>, bound: nat, n: nat): seq<Elem>
    requires 0 < |pieces| == |slots| && n <= |pieces| && bound <= |extra| + 1
  {
    if n == 0 then []
    else Step(Interleave(pieces, extra, slots, bound, n - 1), pieces, extra, slots, bound, n - 1)
  }

  /** The visit of piece `i`, appending to the blocks `acc` produced so far */
  function Step(acc: seq<Elem>, pieces: seq<string>, extra: seq<string>, slots: seq<nat>, bound: nat, i: nat): seq<Elem>
    requires i < |pieces| == |slots| && bound <= |extra| + 1
  {
    if !Kept(pieces[i]) then acc
    else
      var withPara := acc + [Para(i, pieces[i] + ClosingTag)];
      var k := slots[i];
      if k < bound && k > 0 && !HasImage(withPara, k) then withPara + [Img(k, extra[k - 1])]
      else withPara
  }

  /** What the page renders for an article body and its image list */
  function Render(content: string, images: Option<seq<string>>): (r: Rendered)
    ensures r.Whole? <==> images.None? || |images.value| <= 1
    ensures r.Whole? ==> r.html == content
  {
    if images.None? || |images.value| <= 1 then Whole(content)
    else
      var pieces := Split(content, ClosingTag);
      var extra := images.value[1..];
      Blocks(Interleave(pieces, extra, Slots(|extra|, |pieces|), |extra|, |pieces|))
  }

  /** `result.find(el => el.key === 'image-' + k)`, a linear search */
  method FindImage(result: seq<Elem>, k: nat) returns (found: bool)
    ensures found <==> HasImage(result, k)
  {
    var j := 0;
    while j < |result|
      invariant 0 <= j <= |result|
      invariant forall i :: 0 <= i < j ==> !(result[i].Img? && result[i].slot == k)
    {
      if result[j].Img? && result[j].slot == k {
        return true;
      }
      j := j + 1;
    }
    return false;
  }

  /** renderContentWithImages: pushes blocks into `result` while visiting the pieces. */
  method RenderContentWithImages(content: string, images: Option<seq<string>>) returns (r: Rendered)
    ensures r == Render(content, images)
    ensures r.Whole? <==> images.None? || |images.value| <= 1
    ensures r.Whole? ==> r.html == content
  {
    if images.None? || |images.value| <= 1 {
      return Whole(content);
    }
    var additional := images.value[1..];
    var paragraphs := Split(content, ClosingTag);
    ghost var slots := Slots(|additional|, |paragraphs|);
    var result: seq<Elem> := [];
    var index := 0;
    while index < |paragraphs|
      invariant 0 <= index <= |paragraphs|
      invariant result == Interleave(paragraphs, additional, slots, |additional|, index)
    {
      var paragraph := paragraphs[index];
      if Trim(paragraph) != [] {
        result := result + [Para(index, paragraph + ClosingTag)];
        var imageIndex := (index + 1) * |additional| / |paragraphs|;
        assert imageIndex == slots[index];
        if imageIndex < |additional| && imageIndex > 0 {
          var shown := FindImage(result, imageIndex);
          if !shown {
            result := result + [Img(imageIndex, additional[imageIndex - 1])];
          }
        }
      }
      index := index + 1;
    }
    return Blocks(result);
  }

  // ---------------------------------------------------------------------------
  // The slot formula
  // ---------------------------------------------------------------------------

  lemma DivMonotone(a: nat, b: nat, d: nat)
    requires a <= b && d > 0
    ensures a / d <= b / d
  {
    if a / d > b / d {
      MulStep(b / d, a / d, d);
    }
  }

  lemma DivAddDivisor(a: nat, d: nat)
    requires d > 0
    ensures (a + d) / d == a / d + 1
  {
    var q, r := a / d, a % d;
    assert a + d == (q + 1) * d + r;
    DivUnique(a + d, d, q + 1, r);
  }

  lemma DivUnique(a: nat, d: nat, q: nat, r: nat)
    requires d > 0 && r < d && a == q * d + r
    ensures a / d == q
  {
    var q', r' := a / d, a % d;
    assert a == q' * d + r';
    if q' < q {
      MulStep(q', q, d);
    } else if q' > q {
      MulStep(q, q', d);
    }
  }

  lemma MulStep(x: nat, y: nat, d: nat)
    requires x < y
    ensures x * d + d <= y * d
    decreases y - x
  {
    if y > x + 1 {
      MulStep(x, y - 1, d);
      assert (y - 1) * d + d == y * d;
    } else {
      assert (x + 1) * d == x * d + d;
    }
  }

  /** A slot never exceeds the number of extra images. */
  lemma SlotBounded(i: nat, m: nat, p: nat)
    requires i < p
    ensures Slot(i, m, p) <= m
  {
    assert (i + 1) * m <= p * m by {
      assert p * m - (i + 1) * m == (p - i - 1) * m;
    }
    DivMonotone((i + 1) * m, p * m, p);
    DivUnique(p * m, p, m, 0);
  }

  /** Later pieces never get an earlier slot. */
  lemma SlotMonotone(i: nat, j: nat, m: nat, p: nat)
    requires i <= j && p > 0
    ensures Slot(i, m, p) <= Slot(j, m, p)
  {
    assert (i + 1) * m <= (j + 1) * m by {
      assert (j + 1) * m - (i + 1) * m == (j - i) * m;
    }
    DivMonotone((i + 1) * m, (j + 1) * m, p);
  }

  /** With no more extra images than pieces, consecutive slots differ by at most one. */
  lemma SlotStep(i: nat, m: nat, p: nat)
    requires m <= p && p > 0
    ensures Slot(i + 1, m, p) <= Slot(i, m, p) + 1
  {
    assert (i + 2) * m == (i + 1) * m + m;
    DivMonotone((i + 2) * m, (i + 1) * m + p, p);
    DivAddDivisor((i + 1) * m, p);
  }

  /** The slots of successive pieces never go down. */
  predicate Ascending(slots: seq<nat>) {
    forall i, j :: 0 <= i <= j < |slots| ==> slots[i] <= slots[j]
  }

  lemma SlotsAscending(m: nat, p: nat)
    requires p > 0
    ensures Ascending(Slots(m, p))
  {
    var slots := Slots(m, p);
    forall i, j | 0 <= i <= j < p
      ensures slots[i] <= slots[j]
    {
      SlotMonotone(i, j, m, p);
    }
  }

  /** With no more extra images than pieces, every slot `1..m` is the slot of some piece. */
  lemma SlotCovers(m: nat, p: nat, k: nat)
    requires 0 < p && m <= p && 1 <= k <= m
    ensures k in Slots(m, p)
  {
    DivMonotone(m, p, p);
    DivUnique(p, p, 1, 0);
    DivUnique(p * m, p, m, 0);
    assert Slot(p - 1, m, p) == m;
    SlotReaches(p - 1, m, p, k);
    var i :| 0 <= i <= p - 1 && Slot(i, m, p) == k;
    assert Slots(m, p)[i] == k;
  }

  lemma {:induction false} SlotReaches(i: nat, m: nat, p: nat, k: nat)
    requires i < p && m <= p && Slot(0, m, p) <= k <= Slot(i, m, p)
    ensures exists j :: 0 <= j <= i && Slot(j, m, p) == k
    decreases i
  {
    if k < Slot(i, m, p) {
      SlotStep(i - 1, m, p);
      SlotReaches(i - 1, m, p, k);
    }
  }

  // ---------------------------------------------------------------------------
  // What the interleaving produces
  // ---------------------------------------------------------------------------

  /**
   * Block `j` of `r` is in its place: a paragraph is a kept piece with the
   * closing tag re-appended; an image has a shown slot, shows extra image
   * `slot - 1`, and directly follows the paragraph whose slot it is.
   */
  predicate WellPlaced(r: seq<Elem>, j: nat, pieces: seq<string>, extra: seq<string>, slots: seq<nat>, bound: nat, n: nat)
    requires j < |r| && 0 < |pieces| == |slots| && bound <= |extra| + 1
  {
    match r[j]
    case Para(i, html) =>
      i < n && i < |pieces| && Kept(pieces[i]) && html == pieces[i] + ClosingTag
    case Img(k, src) =>
      0 < k < bound && src == extra[k - 1] &&
      j > 0 && r[j - 1].Para? && r[j - 1].index < |slots| && slots[r[j - 1].index] == k
  }

  predicate AllWellPlaced(r: seq<Elem>, pieces: seq<string>, extra: seq<string>, slots: seq<nat>, bound: nat, n: nat)
    requires 0 < |pieces| == |slots| && bound <= |extra| + 1
  {
    // triggered on WellPlaced alone: an image's condition mentions the block before it
    forall j {:trigger WellPlaced(r, j, pieces, extra, slots, bound, n)} ::
      0 <= j < |r| ==> WellPlaced(r, j, pieces, extra, slots, bound, n)
  }

  lemma {:induction false} InterleaveShape(pieces: seq<string>, extra: seq<string>, slots: seq<nat>, bound: nat, n: nat)
    requires 0 < |pieces| == |slots| && n <= |pieces| && bound <= |extra| + 1
    ensures AllWellPlaced(Interleave(pieces, extra, slots, bound, n), pieces, extra, slots, bound, n)
  {
    if n > 0 {
      var acc := Interleave(pieces, extra, slots, bound, n - 1);
      InterleaveShape(pieces, extra, slots, bound, n - 1);
      assert AllWellPlaced(acc, pieces, extra, slots, bound, n - 1);
      var r := Interleave(pieces, extra, slots, bound, n);
      assert acc <= r;
      forall j | 0 <= j < |r|
        ensures WellPlaced(r, j, pieces, extra, slots, bound, n)
      {
        if j < |acc| {
          assert r[j] == acc[j];
          assert WellPlaced(acc, j, pieces, extra, slots, bound, n - 1);
          if r[j].Img? {
            assert r[j - 1] == acc[j - 1];
          }
        }
      }
    }
  }

  /** Paragraph blocks appear in piece order. */
  predicate ParasIncreasing(r: seq<Elem>) {
    forall j1, j2 :: 0 <= j1 < j2 < |r| && r[j1].Para? && r[j2].Para? ==> r[j1].index < r[j2].index
  }

  /** Image slots strictly increase along the blocks, so none repeats. */
  predicate SlotsIncreasing(r: seq<Elem>) {
    forall j1, j2 :: 0 <= j1 < j2 < |r| && r[j1].Img? && r[j2].Img? ==> r[j1].slot < r[j2].slot
  }

  predicate ParasBelow(r: seq<Elem>, n: nat) {
    forall j :: 0 <= j < |r| && r[j].Para? ==> r[j].index < n
  }

  predicate SlotsAtMost(r: seq<Elem>, s: nat) {
    forall j :: 0 <= j < |r| && r[j].Img? ==> r[j].slot <= s
  }

  /** Appending the paragraph for the next piece keeps the order. */
  lemma {:induction false} PushPara(r: seq<Elem>, i: nat, html: string, s: nat)
    requires ParasIncreasing(r) && SlotsIncreasing(r) && ParasBelow(r, i) && SlotsAtMost(r, s)
    ensures var w := r + [Para(i, html)];
      ParasIncreasing(w) && SlotsIncreasing(w) && ParasBelow(w, i + 1) && SlotsAtMost(w, s)
  {
    var w := r + [Para(i, html)];
    assert forall j :: 0 <= j < |r| ==> w[j] == r[j];
  }

  /** Appending an image whose slot is not shown yet, and no earlier slot is above, keeps the order. */
  lemma {:induction false} PushImg(w: seq<Elem>, k: nat, src: string, n: nat)
    requires ParasIncreasing(w) && SlotsIncreasing(w) && ParasBelow(w, n) && SlotsAtMost(w, k)
    requires !HasImage(w, k)
    ensures var v := w + [Img(k, src)];
      ParasIncreasing(v) && SlotsIncreasing(v) && ParasBelow(v, n) && SlotsAtMost(v, k)
  {
    var v := w + [Img(k, src)];
    assert forall j :: 0 <= j < |w| ==> v[j] == w[j];
    forall j | 0 <= j < |w| && w[j].Img?
      ensures w[j].slot < k
    {
      assert w[j].slot <= k;
    }
  }

  /**
   * Paragraphs come in piece order; image slots strictly increase (so no
   * slot is shown twice) and never pass the slot of the last visited piece.
   */
  lemma {:induction false} InterleaveOrdered(pieces: seq<string>, extra: seq<string>, slots: seq<nat>, bound: nat, n: nat)
    requires 0 < |pieces| == |slots| && n <= |pieces| && bound <= |extra| + 1
    requires Ascending(slots)
    ensures ParasIncreasing(Interleave(pieces, extra, slots, bound, n))
    ensures SlotsIncreasing(Interleave(pieces, extra, slots, bound, n))
    ensures ParasBelow(Interleave(pieces, extra, slots, bound, n), n)
    ensures n > 0 ==> SlotsAtMost(Interleave(pieces, extra, slots, bound, n), slots[n - 1])
  {
    if n > 0 {
      var acc := Interleave(pieces, extra, slots, bound, n - 1);
      var k := slots[n - 1];
      InterleaveOrdered(pieces, extra, slots, bound, n - 1);
      assert SlotsAtMost(acc, k) by {
        if n > 1 {
          assert slots[n - 2] <= k;
          assert SlotsAtMost(acc, slots[n - 2]);
        }
      }
      var r := Interleave(pieces, extra, slots, bound, n);
      if Kept(pieces[n - 1]) {
        var withPara := acc + [Para(n - 1, pieces[n - 1] + ClosingTag)];
        PushPara(acc, n - 1, pieces[n - 1] + ClosingTag, k);
        if k < bound && k > 0 && !HasImage(withPara, k) {
          PushImg(withPara, k, extra[k - 1], n);
          assert r == withPara + [Img(k, extra[k - 1])];
        } else {
          assert r == withPara;
        }
      } else {
        assert r == acc;
      }
    }
  }

  /** A kept piece whose slot is in range has that slot's image among the blocks, once visited. */
  lemma {:induction false} InterleaveComplete(pieces: seq<string>, extra: seq<string>, slots: seq<nat>, bound: nat, n: nat, i: nat, k: nat)
    requires 0 < |pieces| == |slots| && n <= |pieces| && bound <= |extra| + 1
    requires i < n && Kept(pieces[i]) && k == slots[i] && 0 < k < bound
    ensures HasImage(Interleave(pieces, extra, slots, bound, n), k)
  {
    var acc := Interleave(pieces, extra, slots, bound, n - 1);
    var r := Interleave(pieces, extra, slots, bound, n);
    assert acc <= r;
    if i < n - 1 {
      InterleaveComplete(pieces, extra, slots, bound, n - 1, i, k);
      var j :| 0 <= j < |acc| && acc[j].Img? && acc[j].slot == k;
      assert r[j] == acc[j];
    } else {
      var withPara := acc + [Para(n - 1, pieces[n - 1] + ClosingTag)];
      if HasImage(withPara, k) {
        var j :| 0 <= j < |withPara| && withPara[j].Img? && withPara[j].slot == k;
        assert r[j] == withPara[j];
      } else {
        assert r[|withPara|] == Img(k, extra[k - 1]);
      }
    }
  }

  /** The html of the paragraph blocks, in order */
  function Paragraphs(elems: seq<Elem>): seq<string> {
    if elems == [] then []
    else
      var last := elems[|elems| - 1];
      Paragraphs(elems[..|elems| - 1]) + (if last.Para? then [last.html] else [])
  }

  /** Reference definition: the non-blank pieces among the first `n`, each with the closing tag */
  function KeptParagraphs(pieces: seq<string>, n: nat): seq<string>
    requires n <= |pieces|
  {
    if n == 0 then []
    else KeptParagraphs(pieces, n - 1) + (if Kept(pieces[n - 1]) then [pieces[n - 1] + ClosingTag] else [])
  }

  lemma ParagraphsAppend(elems: seq<Elem>, e: Elem)
    ensures Paragraphs(elems + [e]) == Paragraphs(elems) + (if e.Para? then [e.html] else [])
  {
    assert (elems + [e])[..|elems|] == elems;
  }

  /** One step adds the paragraph of its piece when that piece is kept, and nothing else. */
  lemma ParagraphsStep(acc: seq<Elem>, pieces: seq<string>, extra: seq<string>, slots: seq<nat>, bound: nat, i: nat)
    requires i < |pieces| == |slots| && bound <= |extra| + 1
    ensures Paragraphs(Step(acc, pieces, extra, slots, bound, i)) ==
      Paragraphs(acc) + (if Kept(pieces[i]) then [pieces[i] + ClosingTag] else [])
  {
    if Kept(pieces[i]) {
      var html := pieces[i] + ClosingTag;
      var withPara := acc + [Para(i, html)];
      ParagraphsAppend(acc, Para(i, html));
      var k := slots[i];
      if k < bound && k > 0 && !HasImage(withPara, k) {
        ParagraphsAppend(withPara, Img(k, extra[k - 1]));
      }
    }
  }

  /** The paragraphs shown are exactly the kept pieces, in order, each closed again. */
  lemma {:induction false} ParagraphsKept(pieces: seq<string>, extra: seq<string>, slots: seq<nat>, bound: nat, n: nat)
    requires 0 < |pieces| == |slots| && n <= |pieces| && bound <= |extra| + 1
    ensures Paragraphs(Interleave(pieces, extra, slots, bound, n)) == KeptParagraphs(pieces, n)
  {
    if n > 0 {
      var acc := Interleave(pieces, extra, slots, bound, n - 1);
      ParagraphsKept(pieces, extra, slots, bound, n - 1);
      ParagraphsStep(acc, pieces, extra, slots, bound, n - 1);
      if Kept(pieces[n - 1]) {
        assert KeptParagraphs(pieces, n) == KeptParagraphs(pieces, n - 1) + [pieces[n - 1] + ClosingTag];
      } else {
        assert KeptParagraphs(pieces, n) == KeptParagraphs(pieces, n - 1);
      }
    }
  }

  // ---------------------------------------------------------------------------
  // The page's rendering
  // ---------------------------------------------------------------------------

  /**
   * What the article shows: its paragraphs are the non-blank pieces of the
   * content in order, every image sits right after a paragraph and slot `k`
   * shows `images[k]`, and slots strictly increase.
   */
  lemma {:induction false} RenderBlocks(content: string, images: Option<seq<string>>)
    requires images.Some? && |images.value| > 1
    ensures Render(content, images).Blocks?
    ensures var pieces := Split(content, ClosingTag);
      Paragraphs(Render(content, images).elems) == KeptParagraphs(pieces, |pieces|)
    ensures var r := Render(content, images).elems;
      forall j :: 0 <= j < |r| && r[j].Img? ==>
        j > 0 && r[j - 1].Para? && r[j].slot < |images.value| && r[j].src == images.value[r[j].slot]
    ensures SlotsIncreasing(Render(content, images).elems)
  {
    var pieces := Split(content, ClosingTag);
    var extra := images.value[1..];
    var slots := Slots(|extra|, |pieces|);
    var r := Interleave(pieces, extra, slots, |extra|, |pieces|);
    assert Render(content, images) == Blocks(r);
    ParagraphsKept(pieces, extra, slots, |extra|, |pieces|);
    SlotsAscending(|extra|, |pieces|);
    InterleaveOrdered(pieces, extra, slots, |extra|, |pieces|);
    InterleaveShape(pieces, extra, slots, |extra|, |pieces|);
    forall j | 0 <= j < |r| && r[j].Img?
      ensures j > 0 && r[j - 1].Para? && r[j].slot < |images.value| && r[j].src == images.value[r[j].slot]
    {
      assert WellPlaced(r, j, pieces, extra, slots, |extra|, |pieces|);
    }
  }

  /**
   * As written, only slots strictly between 0 and the number of extra images
   * are shown: the last image of the list never appears in the body, and
   * with exactly two images no image is inserted at all.
   */
  lemma {:induction false} LastImageNeverShown(content: string, images: Option<seq<string>>)
    requires images.Some? && |images.value| > 1
    ensures Render(content, images).Blocks?
    ensures var r := Render(content, images).elems;
      forall j :: 0 <= j < |r| && r[j].Img? ==> 0 < r[j].slot < |images.value| - 1
    ensures var r := Render(content, images).elems;
      |images.value| == 2 ==> forall j :: 0 <= j < |r| ==> r[j].Para?
  {
    var pieces := Split(content, ClosingTag);
    var extra := images.value[1..];
    var slots := Slots(|extra|, |pieces|);
    var r := Interleave(pieces, extra, slots, |extra|, |pieces|);
    assert Render(content, images) == Blocks(r);
    InterleaveShape(pieces, extra, slots, |extra|, |pieces|);
    forall j | 0 <= j < |r| && r[j].Img?
      ensures 0 < r[j].slot < |images.value| - 1
    {
      assert WellPlaced(r, j, pieces, extra, slots, |extra|, |pieces|);
    }
  }

  lemma TwoPieces()
    ensures Split("a</p>b", ClosingTag) == ["a", "b"]
  {
    var content := "a</p>b";
    assert content[0..4] == "a</p" && content[1..5] == ClosingTag;
    assert !OccursAt(content, ClosingTag, 0) && OccursAt(content, ClosingTag, 1);
    assert IndexOfFrom(content, ClosingTag, 0) == Some(1);
    assert content[..1] == "a" && content[5..] == "b";
    assert IndexOfFrom("b", ClosingTag, 0) == None;
  }

  /** Two paragraphs and two extra images: the first extra image is shown, the second is lost. */
  lemma DroppedImageExample()
    ensures Render("a</p>b", Some(["f", "x", "y"])) ==
      Blocks([Para(0, "a</p>"), Img(1, "x"), Para(1, "b</p>")])
  {
    TwoPieces();
    var pieces := ["a", "b"];
    var extra := ["x", "y"];
    assert ["f", "x", "y"][1..] == extra;
    assert Trim("a") == "a" && Trim("b") == "b";
    var slots := Slots(2, 2);
    assert slots[0] == 1 && slots[1] == 2;
    assert pieces[0] + ClosingTag == "a</p>" && pieces[1] + ClosingTag == "b</p>";
    var first := Interleave(pieces, extra, slots, 2, 1);
    assert Interleave(pieces, extra, slots, 2, 0) == [];
    assert !HasImage([Para(0, "a</p>")], 1);
    assert first == [Para(0, "a</p>"), Img(1, "x")];
    assert Interleave(pieces, extra, slots, 2, 2) == first + [Para(1, "b</p>")];
  }

  // ---------------------------------------------------------------------------
  // The interleaving that shows every extra image
  // ---------------------------------------------------------------------------

  /** The non-blank pieces, in order */
  function KeptPieces(pieces: seq<string>): (kept: seq<string>)
    ensures forall i :: 0 <= i < |kept| ==> Kept(kept[i])
    ensures |kept| <= |pieces|
  {
    if pieces == [] then []
    else (if Kept(pieces[0]) then [pieces[0]] else []) + KeptPieces(pieces[1..])
  }

  /** Every non-blank piece is closed again */
  function Closed(pieces: seq<string>): (r: seq<string>)
    ensures |r| == |pieces|
    ensures forall i :: 0 <= i < |r| ==> r[i] == pieces[i] + ClosingTag
  {
    if pieces == [] then [] else Closed(pieces[..|pieces| - 1]) + [pieces[|pieces| - 1] + ClosingTag]
  }

  lemma {:induction false} KeptPiecesAppend(pieces: seq<string>, piece: string)
    ensures KeptPieces(pieces + [piece]) == KeptPieces(pieces) + (if Kept(piece) then [piece] else [])
  {
    if pieces != [] {
      assert (pieces + [piece])[1..] == pieces[1..] + [piece];
      KeptPiecesAppend(pieces[1..], piece);
    }
  }

  lemma {:induction false} KeptPiecesPrefix(pieces: seq<string>, n: nat)
    requires n <= |pieces|
    ensures Closed(KeptPieces(pieces[..n])) == KeptParagraphs(pieces, n)
  {
    if n > 0 {
      var piece := pieces[n - 1];
      var kept := KeptPieces(pieces[..n - 1]);
      KeptPiecesPrefix(pieces, n - 1);
      assert pieces[..n] == pieces[..n - 1] + [piece];
      KeptPiecesAppend(pieces[..n - 1], piece);
      if Kept(piece) {
        assert KeptPieces(pieces[..n]) == kept + [piece];
        assert (kept + [piece])[..|kept|] == kept;
        assert KeptParagraphs(pieces, n) == KeptParagraphs(pieces, n - 1) + [piece + ClosingTag];
      } else {
        assert KeptPieces(pieces[..n]) == kept;
        assert KeptParagraphs(pieces, n) == KeptParagraphs(pieces, n - 1);
      }
    }
  }

  /**
   * The kept pieces are exactly the non-blank pieces, in order: closed again,
   * they are the paragraphs the page shows.
   */
  lemma KeptPiecesInOrder(pieces: seq<string>)
    ensures Closed(KeptPieces(pieces)) == KeptParagraphs(pieces, |pieces|)
  {
    KeptPiecesPrefix(pieces, |pieces|);
    assert pieces[..|pieces|] == pieces;
  }

  /**
   * The rendering the article evidently intends: slots are spread over the
   * kept paragraphs only, and slot `m` (the last extra image) is allowed.
   */
  function RenderIntended(content: string, images: Option<seq<string>>): Rendered {
    if images.None? || |images.value| <= 1 then Whole(content)
    else
      var kept := KeptPieces(Split(content, ClosingTag));
      var extra := images.value[1..];
      if kept == [] then Blocks([])
      else Blocks(Interleave(kept, extra, Slots(|extra|, |kept|), |extra| + 1, |kept|))
  }

  /** Some block of `r` is the image for slot `k` showing `src` */
  predicate ShowsImage(r: seq<Elem>, k: nat, src: string) {
    r != [] && (r[|r| - 1] == Img(k, src) || ShowsImage(r[..|r| - 1], k, src))
  }

  lemma {:induction false} ShowsImageAt(r: seq<Elem>, j: nat, k: nat, src: string)
    requires j < |r| && r[j] == Img(k, src)
    ensures ShowsImage(r, k, src)
  {
    if j < |r| - 1 {
      ShowsImageAt(r[..|r| - 1], j, k, src);
    }
  }

  /** The two ways of finding an image agree: a block shows slot `k` with `src` exactly when one is at some index. */
  lemma {:induction false} ShowsImageIff(r: seq<Elem>, k: nat, src: string)
    ensures ShowsImage(r, k, src) <==> exists j :: 0 <= j < |r| && r[j] == Img(k, src)
    ensures ShowsImage(r, k, src) ==> HasImage(r, k)
  {
    if r != [] {
      ShowsImageIff(r[..|r| - 1], k, src);
      if ShowsImage(r[..|r| - 1], k, src) {
        var j :| 0 <= j < |r| - 1 && r[..|r| - 1][j] == Img(k, src);
        assert r[j] == Img(k, src);
      }
      if exists j :: 0 <= j < |r| && r[j] == Img(k, src) {
        var j :| 0 <= j < |r| && r[j] == Img(k, src);
        ShowsImageAt(r, j, k, src);
      }
    }
  }

  /** A slot `k` that the interleaving shows is shown with extra image `k - 1`. */
  lemma {:induction false} InterleaveSlotSource(pieces: seq<string>, extra: seq<string>, slots: seq<nat>, bound: nat, n: nat, k: nat)
    requires 0 < |pieces| == |slots| && n <= |pieces| && bound <= |extra| + 1
    requires HasImage(Interleave(pieces, extra, slots, bound, n), k)
    ensures 0 < k <= |extra| && ShowsImage(Interleave(pieces, extra, slots, bound, n), k, extra[k - 1])
  {
    var r := Interleave(pieces, extra, slots, bound, n);
    InterleaveShape(pieces, extra, slots, bound, n);
    var j :| 0 <= j < |r| && r[j].Img? && r[j].slot == k;
    assert WellPlaced(r, j, pieces, extra, slots, bound, n);
    ShowsImageAt(r, j, k, extra[k - 1]);
  }

  /** A slot `1..|extra|` that a kept piece has is shown with extra image `k - 1`. */
  lemma InterleaveShowsSlot(pieces: seq<string>, extra: seq<string>, slots: seq<nat>, i: nat, k: nat)
    requires 0 < |pieces| == |slots| && i < |pieces| && Kept(pieces[i]) && slots[i] == k && 1 <= k <= |extra|
    ensures ShowsImage(Interleave(pieces, extra, slots, |extra| + 1, |pieces|), k, extra[k - 1])
  {
    InterleaveComplete(pieces, extra, slots, |extra| + 1, |pieces|, i, k);
    InterleaveSlotSource(pieces, extra, slots, |extra| + 1, |pieces|, k);
  }

  /**
   * When the article has at least as many non-blank paragraphs as extra
   * images, the intended rendering shows every extra image, each exactly
   * once and in list order.
   */
  lemma {:induction false} IntendedShowsEveryImage(content: string, images: Option<seq<string>>)
    requires images.Some? && |images.value| > 1
    requires |KeptPieces(Split(content, ClosingTag))| >= |images.value| - 1
    ensures RenderIntended(content, images).Blocks?
    ensures forall k :: 1 <= k < |images.value| ==>
      ShowsImage(RenderIntended(content, images).elems, k, images.value[k])
    ensures SlotsIncreasing(RenderIntended(content, images).elems)
  {
    var kept := KeptPieces(Split(content, ClosingTag));
    var extra := images.value[1..];
    var slots := Slots(|extra|, |kept|);
    var r := Interleave(kept, extra, slots, |extra| + 1, |kept|);
    assert RenderIntended(content, images) == Blocks(r);
    SlotsAscending(|extra|, |kept|);
    InterleaveOrdered(kept, extra, slots, |extra| + 1, |kept|);
    forall k | 1 <= k < |images.value|
      ensures ShowsImage(r, k, images.value[k])
    {
      SlotCovers(|extra|, |kept|, k);
      var i :| 0 <= i < |slots| && slots[i] == k;
      InterleaveShowsSlot(kept, extra, slots, i, k);
      assert extra[k - 1] == images.value[k];
    }
  }
}

=== FILE: blog_post.dfy ===
/**
 * The blog article page: its `loading` / `notFound` / `blog` state, set by the
 * effect that runs for the route's slug and by `fetchBlog`, and what the page
 * shows for that state. The content store's answer to the query for a slug
 * is a parameter (`FetchResponse`).
 */
module BlogPost {
  import opened JsText
  import BlogContent

  datatype Blog = Blog(
    title: string,
    excerpt: Option<string>,
    content: Option<string>,
    featuredImage: Option<seq<string>>)

  /** The outcome of the published-article query: a row, an error result, or a thrown exception */
  datatype FetchResponse = Row(blog: Blog) | QueryError | Threw

  datatype Body = NoContent | Content(rendered: BlogContent.Rendered)

  datatype PageView =
    | LoadingView
    | NotFoundView
    | ArticleView(title: string, featured: Option<string>, excerpt: Option<string>, body: Body)

  /** The article's layout around a rendered body: the first image as the featured one, then a truthy excerpt */
  function Layout(b: Blog, body: Body): PageView {
    var featured :=
      if b.featuredImage.Some? && |b.featuredImage.value| > 0 then Some(b.featuredImage.value[0]) else None;
    ArticleView(b.title, featured, if Truthy(b.excerpt) then b.excerpt else None, body)
  }

  /** The article as the page lays it out, its body rendered by `renderContentWithImages` */
  function Article(b: Blog): (v: PageView)
    ensures v.ArticleView? && v.title == b.title
    ensures v.featured.Some? <==> b.featuredImage.Some? && |b.featuredImage.value| > 0
    ensures v.featured.Some? ==> v.featured.value == b.featuredImage.value[0]
    ensures v.excerpt.Some? <==> Truthy(b.excerpt)
    ensures v.excerpt.Some? ==> v.excerpt == b.excerpt
    ensures v.body.Content? <==> Truthy(b.content)
    ensures v.body.Content? ==> v.body.rendered == BlogContent.Render(b.content.value, b.featuredImage)
  {
    Layout(b, if Truthy(b.content) then Content(BlogContent.Render(b.content.value, b.featuredImage)) else NoContent)
  }

  /**
   * As written, the article never shows its last picture when it has two or
   * more: the body's images are pictures `1 .. |images| - 2`, each after a
   * paragraph and in slot order.
   */
  lemma ArticleDropsLastPicture(b: Blog)
    requires Truthy(b.content) && b.featuredImage.Some? && |b.featuredImage.value| > 1
    ensures Article(b).body.Content? && Article(b).body.rendered.Blocks?
    ensures var images, r := b.featuredImage.value, Article(b).body.rendered.elems;
      forall j :: 0 <= j < |r| && r[j].Img? ==> 0 < r[j].slot < |images| - 1 && r[j].src == images[r[j].slot]
    ensures var images, r := b.featuredImage.value, Article(b).body.rendered.elems;
      forall k, src :: k >= |images| - 1 ==> !BlogContent.ShowsImage(r, k, src)
    ensures var r := Article(b).body.rendered.elems;
      (forall j :: 0 <= j < |r| && r[j].Img? ==> j > 0 && r[j - 1].Para?) && BlogContent.SlotsIncreasing(r)
  {
    var content, images := b.content.value, b.featuredImage;
    var r := BlogContent.Render(content, images).elems;
    BlogContent.LastImageNeverShown(content, images);
    BlogContent.RenderBlocks(content, images);
    forall k, src | k >= |images.value| - 1
      ensures !BlogContent.ShowsImage(r, k, src)
    {
      BlogContent.ShowsImageIff(r, k, src);
    }
  }

  /** The article with the body rendering that shows every extra picture */
  function ArticleIntended(b: Blog): PageView {
    Layout(b, if Truthy(b.content) then Content(BlogContent.RenderIntended(b.content.value, b.featuredImage)) else NoContent)
  }

  /**
   * With the corrected rendering every picture of an article is shown: the
   * first as the featured image, each of the others once in the body, when
   * the body has enough non-blank paragraphs to carry them.
   */
  lemma ArticleShowsEveryPicture(b: Blog)
    requires Truthy(b.content) && b.featuredImage.Some? && |b.featuredImage.value| > 1
    requires |BlogContent.KeptPieces(Split(b.content.value, BlogContent.ClosingTag))| >= |b.featuredImage.value| - 1
    ensures ArticleIntended(b).featured == Some(b.featuredImage.value[0])
    ensures ArticleIntended(b).body.Content? && ArticleIntended(b).body.rendered.Blocks?
    ensures forall k :: 1 <= k < |b.featuredImage.value| ==>
      BlogContent.ShowsImage(ArticleIntended(b).body.rendered.elems, k, b.featuredImage.value[k])
  {
    BlogContent.IntendedShowsEveryImage(b.content.value, b.featuredImage);
  }

  /** What a first visit to the page shows once the effect has run, for each slug and answer */
  function FirstVisit(slug: Option<string>, response: FetchResponse): PageView {
    if !Truthy(slug) then NotFoundView
    else match response
      case Row(b) => Article(b)
      case QueryError => NotFoundView
      case Threw => NotFoundView
  }

  class BlogPostPage {
    var blog: Option<Blog>
    var loading: bool
    var notFound: bool
    /** The slugs the page has asked the content store for, in order */
    var requested: seq<string>

    constructor ()
      ensures blog == None && loading && !notFound && requested == []
    {
      blog := None;
      loading := true;
      notFound := false;
      requested := [];
    }

    /** The page's rendering: a loading skeleton, the not-found card, or the article */
    function View(): (v: PageView)
      reads this
      ensures v == LoadingView <==> loading
      ensures v == NotFoundView <==> !loading && (notFound || blog.None?)
      ensures v.ArticleView? ==> blog.Some? && v == Article(blog.value)
    {
      if loading then LoadingView
      else if notFound || blog.None? then NotFoundView
      else Article(blog.value)
    }

    /** fetchBlog: the query, then either the row or `notFound`; `loading` ends false in every case. */
    method FetchBlog(blogSlug: string, response: FetchResponse)
      modifies this
      ensures requested == old(requested) + [blogSlug]
      ensures !loading
      ensures response.Row? ==> blog == Some(response.blog) && notFound == old(notFound)
      ensures !response.Row? ==> notFound && blog == old(blog)
    {
      requested := requested + [blogSlug];
      match response {
        case Row(b) =>
          blog := Some(b);
        case QueryError =>
          notFound := true;
        case Threw =>
          notFound := true;
      }
      loading := false;
    }

    /** The effect for the route's slug: a missing or empty slug ends loading as not found, without a query. */
    method OnSlug(slug: Option<string>, response: FetchResponse)
      modifies this
      ensures !Truthy(slug) ==> !loading && notFound && blog == old(blog) && requested == old(requested)
      ensures Truthy(slug) ==> requested == old(requested) + [slug.value] && !loading
      ensures Truthy(slug) && response.Row? ==> blog == Some(response.blog) && notFound == old(notFound)
      ensures Truthy(slug) && !response.Row? ==> notFound && blog == old(blog)
    {
      if !Truthy(slug) {
        loading := false;
        notFound := true;
        return;
      }
      FetchBlog(slug.value, response);
    }

    /** The effect with the flags reset before the query, so that each slug starts afresh */
    method OnSlugReset(slug: Option<string>, response: FetchResponse)
      modifies this
      ensures View() == FirstVisit(slug, response)
      ensures Truthy(slug) ==> requested == old(requested) + [slug.value]
      ensures !Truthy(slug) ==> requested == old(requested)
    {
      loading := true;
      notFound := false;
      blog := None;
      OnSlug(slug, response);
    }
  }

  /**
   * A first visit: the page never stays in its loading state, shows the
   * article exactly when the slug is present and the row came back, and asks
   * for at most that one slug.
   */
  method Visit(slug: Option<string>, response: FetchResponse) returns (v: PageView, asked: seq<string>)
    ensures v == FirstVisit(slug, response)
    ensures v != LoadingView
    ensures v.ArticleView? <==> Truthy(slug) && response.Row?
    ensures asked == (if Truthy(slug) then [slug.value] else [])
  {
    var page := new BlogPostPage();
    page.OnSlug(slug, response);
    v := page.View();
    asked := page.requested;
  }

  /**
   * As written, the flags are not reset when the slug changes: after one
   * article was not found, a later article that does exist is still shown
   * as not found.
   */
  method StaleNotFound(first: string, second: string, b: Blog) returns (v: PageView)
    requires first != "" && second != ""
    ensures v == NotFoundView
    ensures FirstVisit(Some(second), Row(b)) != NotFoundView
  {
    var page := new BlogPostPage();
    page.OnSlug(Some(first), QueryError);
    page.OnSlug(Some(second), Row(b));
    v := page.View();
  }

  /** With the flags reset per slug, what the page shows depends only on the latest slug and answer. */
  method Navigate(first: Option<string>, firstResponse: FetchResponse, second: Option<string>, secondResponse: FetchResponse)
    returns (v: PageView)
    ensures v == FirstVisit(second, secondResponse)
    ensures v.ArticleView? <==> Truthy(second) && secondResponse.Row?
  {
    var page := new BlogPostPage();
    page.OnSlugReset(first, firstResponse);
    page.OnSlugReset(second, secondResponse);
    v := page.View();
  }
}

=== FILE: cart_sidebar.dfy ===
/**
 * The cart sidebar: the rows it lists with their prices, the requests its
 * controls send to the cart store, its summary and checkout button, and the
 * checkout hand-off, which saves the cart and the created order in session
 * storage before moving on to the checkout page.
 *
 * The cart store and the checkout service are not modelled: the items, the
 * store's total and the checkout's outcome are inputs.
 */
module CartSidebar {
  import opened JsText
  import opened Catalog

  // ---------------------------------------------------------------------------
  // Rows
  // ---------------------------------------------------------------------------

  /**
   * The unit price of a row: the variant's price whenever the variant has
   * one (zero included), otherwise the product's, and zero when neither is
   * set.
   */
  function UnitPrice(item: LineItem): int {
    var chosen :=
      if item.variant.Some? && item.variant.value.price.Some? then item.variant.value.price
      else item.product.price;
    chosen.GetOr(0)
  }

  /** The amount shown on a row, in cents */
  function LineTotal(item: LineItem): int {
    UnitPrice(item) * item.quantity
  }

  /** A variant's own price, even zero, decides the row: the product's price then plays no part. */
  lemma VariantPriceWins(item: LineItem, productPrice: Option<int>)
    requires item.variant.Some? && item.variant.value.price.Some?
    ensures LineTotal(item) == item.variant.value.price.value * item.quantity
    ensures LineTotal(item.(product := item.product.(price := productPrice))) == LineTotal(item)
  {
  }

  /** Without a variant price the product's price is used; with no price at all the row is free. */
  lemma ProductPriceFallback(item: LineItem)
    requires item.variant.None? || item.variant.value.price.None?
    ensures item.product.price.Some? ==> LineTotal(item) == item.product.price.value * item.quantity
    ensures item.product.price.None? ==> LineTotal(item) == 0
  {
  }

  function VariantTitle(variant: Option<Variant>): Option<string> {
    if variant.Some? then variant.value.title else None
  }

  /** The row heading: the product title, followed by " - " and the variant title when that is truthy */
  function RowTitle(item: LineItem): (title: string)
    ensures |title| >= |item.product.title| && title[..|item.product.title|] == item.product.title
    ensures |title| > |item.product.title| <==> Truthy(VariantTitle(item.variant))
    ensures Truthy(VariantTitle(item.variant)) ==>
      title[|item.product.title|..] == " - " + VariantTitle(item.variant).value
  {
    item.product.title +
      (if Truthy(VariantTitle(item.variant)) then " - " + VariantTitle(item.variant).value else "")
  }

  /** The three controls on a row */
  datatype Control = Decrease | Increase | Remove

  /** What the cart store is asked to do */
  datatype CartRequest = UpdateQuantity(key: string, quantity: int) | RemoveItem(key: string)

  /**
   * A control's request: always about its own row's key; the minus and plus
   * buttons ask for one unit fewer or more, the bin removes the row. The
   * quantity asked for is not checked here (the store decides what zero means).
   */
  function RequestFor(item: LineItem, control: Control): (req: CartRequest)
    ensures req.key == item.key
    ensures req.RemoveItem? <==> control == Remove
    ensures control == Increase ==> req.quantity == item.quantity + 1
    ensures control == Decrease ==> req.quantity == item.quantity - 1
  {
    match control
    case Decrease => UpdateQuantity(item.key, item.quantity - 1)
    case Increase => UpdateQuantity(item.key, item.quantity + 1)
    case Remove => RemoveItem(item.key)
  }

  // ---------------------------------------------------------------------------
  // The sidebar
  // ---------------------------------------------------------------------------

  datatype RowView = RowView(
    key: string,
    image: Option<string>,
    title: string,
    quantity: int,
    lineTotal: int)

  function RowOf(item: LineItem): RowView {
    RowView(
      item.key,
      ImageChoice(item.variant, item.product.images),
      RowTitle(item),
      item.quantity,
      LineTotal(item))
  }

  datatype CheckoutButton = CheckoutButton(disabled: bool, caption: string)

  datatype SidebarView =
    | EmptyCart
    | Filled(rows: seq<RowView>, total: int, checkout: CheckoutButton)

  /**
   * The sidebar for the store's items and total: the empty-cart message
   * exactly when there are no items; otherwise one row per item, in order,
   * the store's total as it is, and a checkout button that is disabled and
   * reads "Processing..." while an order is being created.
   */
  function Sidebar(items: seq<LineItem>, total: int, isCreatingOrder: bool): (v: SidebarView)
    ensures v.EmptyCart? <==> items == []
    ensures v.Filled? ==> |v.rows| == |items| && forall k :: 0 <= k < |items| ==> v.rows[k] == RowOf(items[k])
    ensures v.Filled? ==> v.total == total
    ensures v.Filled? ==> (v.checkout.disabled <==> isCreatingOrder)
    ensures v.Filled? ==>
      v.checkout.caption == (if isCreatingOrder then "Processing..." else "Proceed to Checkout")
  {
    if |items| == 0 then EmptyCart
    else
      Filled(
        seq(|items|, k requires 0 <= k < |items| => RowOf(items[k])),
        total,
        CheckoutButton(isCreatingOrder, if isCreatingOrder then "Processing..." else "Proceed to Checkout"))
  }

  function SumLineTotals(items: seq<LineItem>): int {
    if items == [] then 0 else SumLineTotals(items[..|items| - 1]) + LineTotal(items[|items| - 1])
  }

  function SumRows(rows: seq<RowView>): int {
    if rows == [] then 0 else SumRows(rows[..|rows| - 1]) + rows[|rows| - 1].lineTotal
  }

  lemma {:induction false} SumRowsOfItems(items: seq<LineItem>, rows: seq<RowView>)
    requires |rows| == |items| && forall k :: 0 <= k < |items| ==> rows[k] == RowOf(items[k])
    ensures SumRows(rows) == SumLineTotals(items)
  {
    if items != [] {
      SumRowsOfItems(items[..|items| - 1], rows[..|rows| - 1]);
    }
  }

  /**
   * The summary shows the store's total, not a sum of its own: the rows add
   * up to the total shown exactly when the store's total is the sum of the
   * line totals.
   */
  lemma RowsAddUpToTotal(items: seq<LineItem>, total: int, isCreatingOrder: bool)
    requires items != []
    ensures Sidebar(items, total, isCreatingOrder).total == total
    ensures SumRows(Sidebar(items, total, isCreatingOrder).rows) == total <==> SumLineTotals(items) == total
  {
    var v := Sidebar(items, total, isCreatingOrder);
    SumRowsOfItems(items, v.rows);
  }

  // ---------------------------------------------------------------------------
  // The checkout hand-off
  // ---------------------------------------------------------------------------

  /** An order's identifier, as the checkout service returns it */
  datatype OrderId = NumericId(n: int) | TextId(text: string)

  /** A created order; everything but its identifier is kept as one opaque value */
  datatype Order = Order(orderId: OrderId, details: string)

  /** `String(order.order_id)` */
  function IdText(id: OrderId): string {
    match id
    case NumericId(n) => IntToString(n)
    case TextId(t) => t
  }

  /** The values written to session storage; their serialisation is not modelled */
  datatype Stored =
    | CartSnapshot(items: seq<LineItem>, total: int)
    | OrderRecord(order: Order)
    | Text(text: string)

  const CartKey: string := "checkout_cart"
  const OrderKey: string := "checkout_order"
  const OrderIdKey: string := "checkout_order_id"
  const CheckoutPath: string := "/checkout"

  /** What the checkout call does: it resolves with a created order, or it throws */
  datatype CheckoutOutcome = Created(order: Order) | Rejected

  /** What the hand-off does that can be observed, in order */
  datatype Effect =
    | Wrote(key: string, value: Stored)
    | CheckoutCalled(currencyCode: string)
    | ClosedSidebar
    | NavigatedTo(path: string)

  /** A write to `key` succeeds unless `key` is among the failing ones */
  function WriteIf(key: string, value: Stored, failing: set<string>): seq<Effect> {
    if key in failing then [] else [Wrote(key, value)]
  }

  /**
   * The effects of one click on the checkout button. The cart snapshot is
   * attempted first and its failure ignored; then the checkout is called.
   * If it throws, nothing else happens. If it creates an order, the order
   * and then its identifier are saved — a failure of the first skips the
   * second, a failure of either is ignored — and the sidebar closes and the
   * page moves to the checkout.
   */
  function HandOff(items: seq<LineItem>, total: int, currencyCode: string, outcome: CheckoutOutcome,
                   failing: set<string>): seq<Effect>
  {
    var before := Started(items, total, currencyCode, failing);
    match outcome
    case Rejected => before
    case Created(order) => before + Proceed(order, failing)
  }

  /** Before the outcome is known: the cart snapshot's write, then the call to the checkout */
  function Started(items: seq<LineItem>, total: int, currencyCode: string, failing: set<string>): seq<Effect> {
    WriteIf(CartKey, CartSnapshot(items, total), failing) + [CheckoutCalled(currencyCode)]
  }

  /** After a created order: its writes, then closing the sidebar and moving to the checkout */
  function Proceed(order: Order, failing: set<string>): seq<Effect> {
    SaveOrder(order, failing) + [ClosedSidebar, NavigatedTo(CheckoutPath)]
  }

  /** The writes of the created order and then its identifier, in one try block */
  function SaveOrder(order: Order, failing: set<string>): seq<Effect> {
    if OrderKey in failing then []
    else [Wrote(OrderKey, OrderRecord(order))] + WriteIf(OrderIdKey, Text(IdText(order.orderId)), failing)
  }

  /** The storage a sequence of effects leaves behind */
  function Replay(session: map<string, Stored>, effects: seq<Effect>): map<string, Stored> {
    if effects == [] then session
    else
      var s := Replay(session, effects[..|effects| - 1]);
      match effects[|effects| - 1]
      case Wrote(k, v) => s[k := v]
      case _ => s
  }

  lemma ReplayAppend(session: map<string, Stored>, effects: seq<Effect>, e: Effect)
    ensures Replay(session, effects + [e]) ==
      (if e.Wrote? then Replay(session, effects)[e.key := e.value] else Replay(session, effects))
  {
    assert (effects + [e])[..|effects|] == effects;
  }

  /** Replaying two runs of effects one after the other is replaying them together. */
  lemma {:induction false} ReplayConcat(session: map<string, Stored>, a: seq<Effect>, b: seq<Effect>)
    ensures Replay(session, a + b) == Replay(Replay(session, a), b)
    decreases |b|
  {
    if b == [] {
      assert a + b == a;
    } else {
      var b0 := b[..|b| - 1];
      ReplayConcat(session, a, b0);
      assert a + b == (a + b0) + [b[|b| - 1]];
      assert b == b0 + [b[|b| - 1]];
      ReplayAppend(session, a + b0, b[|b| - 1]);
      ReplayAppend(Replay(session, a), b0, b[|b| - 1]);
    }
  }

  /** The checkout is called exactly once, with the shop's currency, right after the snapshot attempt. */
  lemma CheckoutCalledOnce(items: seq<LineItem>, total: int, currencyCode: string, outcome: CheckoutOutcome,
                           failing: set<string>)
    ensures var e := HandOff(items, total, currencyCode, outcome, failing);
      var at := if CartKey in failing then 0 else 1;
      at < |e| && e[at] == CheckoutCalled(currencyCode)
      && (forall i :: 0 <= i < |e| && i != at ==> !e[i].CheckoutCalled?)
    ensures CartKey !in failing ==>
      HandOff(items, total, currencyCode, outcome, failing)[0] == Wrote(CartKey, CartSnapshot(items, total))
  {
  }

  /**
   * The page moves to the checkout exactly when an order was created, and
   * then always, whatever storage writes failed: closing the sidebar and
   * navigating are the last two effects.
   */
  lemma NavigatesIffCreated(items: seq<LineItem>, total: int, currencyCode: string, outcome: CheckoutOutcome,
                            failing: set<string>)
    ensures var e := HandOff(items, total, currencyCode, outcome, failing);
      NavigatedTo(CheckoutPath) in e <==> outcome.Created?
    ensures var e := HandOff(items, total, currencyCode, outcome, failing);
      outcome.Created? ==> |e| >= 3 && e[|e| - 2] == ClosedSidebar && e[|e| - 1] == NavigatedTo(CheckoutPath)
    ensures var e := HandOff(items, total, currencyCode, outcome, failing);
      outcome.Rejected? ==> ClosedSidebar !in e
  {
    var e := HandOff(items, total, currencyCode, outcome, failing);
    if outcome.Rejected? {
      assert e == WriteIf(CartKey, CartSnapshot(items, total), failing) + [CheckoutCalled(currencyCode)];
    }
  }

  /** The identifier is saved only after the order itself was saved. */
  lemma OrderIdAfterOrder(items: seq<LineItem>, total: int, currencyCode: string, outcome: CheckoutOutcome,
                          failing: set<string>, j: int)
    requires var e := HandOff(items, total, currencyCode, outcome, failing);
      0 <= j < |e| && e[j].Wrote? && e[j].key == OrderIdKey
    ensures outcome.Created?
    ensures var e := HandOff(items, total, currencyCode, outcome, failing);
      0 < j && e[j - 1] == Wrote(OrderKey, OrderRecord(outcome.order))
      && e[j].value == Text(IdText(outcome.order.orderId))
  {
    var before := WriteIf(CartKey, CartSnapshot(items, total), failing) + [CheckoutCalled(currencyCode)];
    assert forall i :: 0 <= i < |before| ==> !(before[i].Wrote? && before[i].key == OrderIdKey);
  }

  /**
   * When every write succeeds, storage afterwards holds the cart snapshot,
   * the order and its identifier; a rejected checkout leaves the order keys
   * as they were, while the snapshot written before the call stays.
   */
  lemma SessionAfterHandOff(session: map<string, Stored>, items: seq<LineItem>, total: int, currencyCode: string,
                            outcome: CheckoutOutcome, failing: set<string>)
    ensures failing == {} && outcome.Created? ==>
      Replay(session, HandOff(items, total, currencyCode, outcome, failing))
      == session[CartKey := CartSnapshot(items, total)][OrderKey := OrderRecord(outcome.order)]
                [OrderIdKey := Text(IdText(outcome.order.orderId))]
    ensures outcome.Rejected? ==>
      var after := Replay(session, HandOff(items, total, currencyCode, outcome, failing));
      (OrderKey in after <==> OrderKey in session) && (OrderKey in session ==> after[OrderKey] == session[OrderKey])
      && (OrderIdKey in after <==> OrderIdKey in session)
      && (OrderIdKey in session ==> after[OrderIdKey] == session[OrderIdKey])
    ensures outcome.Rejected? && CartKey !in failing ==>
      var after := Replay(session, HandOff(items, total, currencyCode, outcome, failing));
      CartKey in after && after[CartKey] == CartSnapshot(items, total)
  {
    var snap := WriteIf(CartKey, CartSnapshot(items, total), failing);
    var called := snap + [CheckoutCalled(currencyCode)];
    ReplayAppend(session, snap, CheckoutCalled(currencyCode));
    if CartKey !in failing {
      ReplayAppend(session, [], Wrote(CartKey, CartSnapshot(items, total)));
      assert snap == [] + [Wrote(CartKey, CartSnapshot(items, total))];
    }
    match outcome
    case Rejected =>
    case Created(order) =>
      if failing == {} {
        var w1 := called + [Wrote(OrderKey, OrderRecord(order))];
        var w2 := w1 + [Wrote(OrderIdKey, Text(IdText(order.orderId)))];
        var w3 := w2 + [ClosedSidebar];
        ReplayAppend(session, called, Wrote(OrderKey, OrderRecord(order)));
        ReplayAppend(session, w1, Wrote(OrderIdKey, Text(IdText(order.orderId))));
        ReplayAppend(session, w2, ClosedSidebar);
        ReplayAppend(session, w3, NavigatedTo(CheckoutPath));
        assert HandOff(items, total, currencyCode, outcome, failing) == w3 + [NavigatedTo(CheckoutPath)];
      }
  }

  /**
   * A failed write of the order leaves the identifier of an earlier order in
   * storage while the page still moves to the checkout.
   */
  lemma EarlierOrderIdSurvives(session: map<string, Stored>, items: seq<LineItem>, total: int,
                               currencyCode: string, order: Order)
    requires OrderIdKey in session
    ensures var e := HandOff(items, total, currencyCode, Created(order), {OrderKey});
      NavigatedTo(CheckoutPath) in e
      && OrderIdKey in Replay(session, e) && Replay(session, e)[OrderIdKey] == session[OrderIdKey]
  {
    var snap := [Wrote(CartKey, CartSnapshot(items, total))];
    var e := HandOff(items, total, currencyCode, Created(order), {OrderKey});
    assert e == snap + [CheckoutCalled(currencyCode)] + [ClosedSidebar] + [NavigatedTo(CheckoutPath)];
    ReplayAppend(session, [], snap[0]);
    assert [] + snap == snap;
    ReplayAppend(session, snap, CheckoutCalled(currencyCode));
    ReplayAppend(session, snap + [CheckoutCalled(currencyCode)], ClosedSidebar);
    ReplayAppend(session, snap + [CheckoutCalled(currencyCode)] + [ClosedSidebar], NavigatedTo(CheckoutPath));
  }

  /**
   * The sidebar's session storage and what the hand-off has done so far.
   * `failing` are the keys whose writes throw (storage full or disabled).
   */
  class CheckoutHandOff {
    var session: map<string, Stored>
    var effects: seq<Effect>
    const failing: set<string>

    constructor (session: map<string, Stored>, failing: set<string>)
      ensures this.session == session && this.failing == failing && effects == []
    {
      this.session := session;
      this.failing := failing;
      effects := [];
    }

    /** `sessionStorage.setItem`; `ok` is false when it throws, and then nothing is written */
    method SetItem(key: string, value: Stored) returns (ok: bool)
      modifies this
      ensures ok <==> key !in failing
      ensures effects == old(effects) + WriteIf(key, value, failing)
      ensures session == Replay(old(session), WriteIf(key, value, failing))
    {
      ok := key !in failing;
      if ok {
        session := session[key := value];
        effects := effects + [Wrote(key, value)];
        ReplayAppend(old(session), [], Wrote(key, value));
        assert [] + [Wrote(key, value)] == [Wrote(key, value)];
      }
    }

    /** Records an effect that does not touch storage */
    method Emit(e: Effect)
      requires !e.Wrote?
      modifies this
      ensures effects == old(effects) + [e]
      ensures session == Replay(old(session), [e])
    {
      effects := effects + [e];
      ReplayAppend(session, [], e);
      assert [] + [e] == [e];
    }

    /** The try block that saves the created order and then its identifier */
    method SaveCreatedOrder(order: Order)
      modifies this
      ensures effects == old(effects) + SaveOrder(order, failing)
      ensures session == Replay(old(session), SaveOrder(order, failing))
    {
      var orderSaved := SetItem(OrderKey, OrderRecord(order));
      if orderSaved {
        var idSaved := SetItem(OrderIdKey, Text(IdText(order.orderId)));
        ReplayConcat(old(session), [Wrote(OrderKey, OrderRecord(order))],
          WriteIf(OrderIdKey, Text(IdText(order.orderId)), failing));
      }
    }

    /** What follows a created order: saving it, closing the sidebar, moving to the checkout */
    method AfterCreated(order: Order)
      modifies this
      ensures effects == old(effects) + Proceed(order, failing)
      ensures session == Replay(old(session), Proceed(order, failing))
    {
      SaveCreatedOrder(order);
      ghost var done := SaveOrder(order, failing);
      Emit(ClosedSidebar);
      ReplayConcat(old(session), done, [ClosedSidebar]);
      done := done + [ClosedSidebar];
      Emit(NavigatedTo(CheckoutPath));
      ReplayConcat(old(session), done, [NavigatedTo(CheckoutPath)]);
      done := done + [NavigatedTo(CheckoutPath)];
      assert done == Proceed(order, failing);
    }

    /** The cart snapshot is saved (a failure is swallowed), then the checkout is called */
    method StartCheckout(items: seq<LineItem>, total: int, currencyCode: string)
      modifies this
      ensures effects == old(effects) + Started(items, total, currencyCode, failing)
      ensures session == Replay(old(session), Started(items, total, currencyCode, failing))
    {
      var snapshotSaved := SetItem(CartKey, CartSnapshot(items, total));
      ghost var done := WriteIf(CartKey, CartSnapshot(items, total), failing);
      Emit(CheckoutCalled(currencyCode));
      ReplayConcat(old(session), done, [CheckoutCalled(currencyCode)]);
    }

    /** handleCreateCheckout: one click on the checkout button, with the checkout's outcome given */
    method HandleCreateCheckout(items: seq<LineItem>, total: int, currencyCode: string, outcome: CheckoutOutcome)
      modifies this
      ensures effects == old(effects) + HandOff(items, total, currencyCode, outcome, failing)
      ensures session == Replay(old(session), HandOff(items, total, currencyCode, outcome, failing))
    {
      StartCheckout(items, total, currencyCode);
      ghost var done := Started(items, total, currencyCode, failing);
      if outcome.Created? {
        AfterCreated(outcome.order);
        ReplayConcat(old(session), done, Proceed(outcome.order, failing));
      }
    }
  }
}

=== FILE: catalog.dfy ===
/**
 * The catalog records the storefront components read: products, their
 * variants and cart line items. Money is in integer cents; a price that the
 * backend may leave null is an `Option<int>`.
 */
module Catalog {
  import opened JsText

  datatype Product = Product(
    id: string,
    slug: string,
    title: string,
    description: Option<string>,
    featured: bool,
    price: Option<int>,
    images: Option<seq<string>>)

  datatype Variant = Variant(
    id: string,
    title: Option<string>,
    price: Option<int>,
    image: Option<string>)

  /** One cart row; `key` identifies the (product, variant) pair. */
  datatype LineItem = LineItem(
    key: string,
    product: Product,
    variant: Option<Variant>,
    quantity: int)

  function VariantImage(variant: Option<Variant>): Option<string> {
    if variant.Some? then variant.value.image else None
  }

  /**
   * The picture a product card or a cart row shows: the selected variant's
   * image when it is truthy, otherwise the product's first image, otherwise
   * none ("No image").
   */
  function ImageChoice(variant: Option<Variant>, images: Option<seq<string>>): (r: Option<string>)
    ensures r.Some? <==> Truthy(VariantImage(variant)) || (images.Some? && |images.value| > 0)
    ensures Truthy(VariantImage(variant)) ==> r == VariantImage(variant)
    ensures !Truthy(VariantImage(variant)) && r.Some? ==> r.value == images.value[0]
  {
    if Truthy(VariantImage(variant)) then VariantImage(variant)
    else if images.Some? && |images.value| > 0 then Some(images.value[0])
    else None
  }
}

=== FILE: ecommerce_template.dfy ===
/**
 * The shop's page template: the header with its navigation and cart button,
 * the page title, and the floating cart mounted beside the page.
 */
module EcommerceTemplate {
  import opened JsText
  import FloatingCart

  /** The template's properties that change what it shows; `showCart` may be left unset */
  datatype Props = Props(pageTitle: Option<string>, showCart: Option<bool>)

  /** An unset `showCart` means true */
  function ShowCart(props: Props): (show: bool)
    ensures props.showCart.None? ==> show
    ensures props.showCart.Some? ==> show == props.showCart.value
  {
    props.showCart.GetOr(true)
  }

  /** The header's own badge text: the same cap as the floating cart's, written out a second time */
  function HeaderBadgeLabel(totalItems: int): string {
    if totalItems > 99 then "99+" else IntToString(totalItems)
  }

  /** The two badge rules agree on every count. */
  lemma BadgeLabelsAgree(totalItems: int)
    ensures HeaderBadgeLabel(totalItems) == FloatingCart.BadgeLabel(totalItems)
  {
  }

  datatype HeaderCart = NoCartButton | HeaderCartButton(badge: Option<string>)

  /** The header's cart button: present when the cart is shown, with a badge for a positive count */
  function HeaderCartFor(showCart: bool, totalItems: int): (c: HeaderCart)
    ensures c.HeaderCartButton? <==> showCart
    ensures c.HeaderCartButton? ==> (c.badge.Some? <==> totalItems > 0)
    ensures c.HeaderCartButton? && c.badge.Some? ==> c.badge.value == HeaderBadgeLabel(totalItems)
  {
    if !showCart then NoCartButton
    else HeaderCartButton(if totalItems > 0 then Some(HeaderBadgeLabel(totalItems)) else None)
  }

  datatype NavLink = CollectionsLink | SpiritsLink | BlogLink

  /** The navigation: "Collections" once the collections have loaded and there are some, then the fixed links */
  function NavLinks(loadingCollections: bool, hasCollections: bool): (links: seq<NavLink>)
    ensures CollectionsLink in links <==> !loadingCollections && hasCollections
    ensures |links| >= 2 && links[|links| - 2] == SpiritsLink && links[|links| - 1] == BlogLink
    ensures CollectionsLink in links ==> links[0] == CollectionsLink
    ensures |links| == (if !loadingCollections && hasCollections then 3 else 2)
  {
    if !loadingCollections && hasCollections then [CollectionsLink, SpiritsLink, BlogLink]
    else [SpiritsLink, BlogLink]
  }

  datatype Layout = Layout(
    nav: seq<NavLink>,
    cart: HeaderCart,
    title: Option<string>,
    floatingCart: Option<FloatingCart.View>)

  /** The template for its properties, the cart's item count and the collections' loading state */
  function Template(props: Props, totalItems: int, loadingCollections: bool, hasCollections: bool): (l: Layout)
    ensures l.nav == NavLinks(loadingCollections, hasCollections)
    ensures l.cart == HeaderCartFor(ShowCart(props), totalItems)
    ensures l.title.Some? <==> Truthy(props.pageTitle)
    ensures l.title.Some? ==> l.title == props.pageTitle
    ensures l.floatingCart.Some? <==> ShowCart(props)
    ensures l.floatingCart.Some? ==> l.floatingCart.value == FloatingCart.Render(totalItems)
  {
    var show := ShowCart(props);
    Layout(
      NavLinks(loadingCollections, hasCollections),
      HeaderCartFor(show, totalItems),
      if Truthy(props.pageTitle) then props.pageTitle else None,
      if show then Some(FloatingCart.Render(totalItems)) else None)
  }

  /**
   * The two cart entry points are mounted together or not at all. They are
   * drawn together for every count but zero: with an empty cart the header
   * button stays while the floating cart draws nothing. Whenever the
   * floating cart draws a badge the header draws the same one.
   */
  lemma CartEntryPointsAgree(props: Props, totalItems: int, loadingCollections: bool, hasCollections: bool)
    ensures var l := Template(props, totalItems, loadingCollections, hasCollections);
      l.cart.HeaderCartButton? <==> l.floatingCart.Some?
    ensures var l := Template(props, totalItems, loadingCollections, hasCollections);
      l.cart.HeaderCartButton? && totalItems != 0 <==> l.floatingCart.Some? && l.floatingCart.value.CartButton?
    ensures var l := Template(props, totalItems, loadingCollections, hasCollections);
      l.floatingCart.Some? && l.floatingCart.value.CartButton? && l.floatingCart.value.badge.Some? ==>
        l.cart.HeaderCartButton? && l.cart.badge == l.floatingCart.value.badge
    ensures var l := Template(props, totalItems, loadingCollections, hasCollections);
      l.cart.HeaderCartButton? && l.cart.badge.Some? ==> l.floatingCart == Some(FloatingCart.CartButton(l.cart.badge))
  {
    BadgeLabelsAgree(totalItems);
  }

  /**
   * Left unset, `showCart` shows the header button and mounts the floating
   * cart, which draws its button for every count but zero.
   */
  lemma DefaultShowsCart(pageTitle: Option<string>, totalItems: int, loadingCollections: bool, hasCollections: bool)
    ensures var l := Template(Props(pageTitle, None), totalItems, loadingCollections, hasCollections);
      l.cart.HeaderCartButton? && l.floatingCart.Some?
    ensures var l := Template(Props(pageTitle, None), totalItems, loadingCollections, hasCollections);
      l.floatingCart.Some? && (l.floatingCart.value.CartButton? <==> totalItems != 0)
  {
  }
}

=== FILE: floating_cart.dfy ===
/**
 * The floating cart button shown on small screens: hidden when the cart
 * holds no items, otherwise a button with a count badge capped at "99+".
 */
module FloatingCart {
  import opened JsText

  /** The badge text: the count itself, or "99+" above 99 */
  function BadgeLabel(totalItems: int): string {
    if totalItems > 99 then "99+" else IntToString(totalItems)
  }

  datatype View = Hidden | CartButton(badge: Option<string>)

  /**
   * Nothing is drawn for a count of zero; any other count draws the button,
   * with a badge exactly when the count is positive.
   */
  function Render(totalItems: int): (v: View)
    ensures v.Hidden? <==> totalItems == 0
    ensures v.CartButton? ==> (v.badge.Some? <==> totalItems > 0)
    ensures v.CartButton? && v.badge.Some? ==> v.badge.value == BadgeLabel(totalItems)
  {
    if totalItems == 0 then Hidden
    else CartButton(if totalItems > 0 then Some(BadgeLabel(totalItems)) else None)
  }

  /**
   * For a positive count the badge reads "99+" exactly above 99; up to 99
   * it is one or two decimal digits that read back as the count.
   */
  lemma BadgeLabelShape(n: int)
    requires n > 0
    ensures BadgeLabel(n) == "99+" <==> n > 99
    ensures n <= 99 ==> 1 <= |BadgeLabel(n)| <= 2
    ensures n <= 99 ==>
      (forall k :: 0 <= k < |BadgeLabel(n)| ==> IsDigit(BadgeLabel(n)[k])) && ParseDecimal(BadgeLabel(n)) == n
  {
    if n <= 99 {
      DecimalLength(n);
      DecimalRoundTrip(n);
    }
  }

  /** Distinct counts up to the cap get distinct badges. */
  lemma BadgeLabelInjective(a: int, b: int)
    requires 0 < a <= 99 && 0 < b <= 99
    requires BadgeLabel(a) == BadgeLabel(b)
    ensures a == b
  {
    DecimalInjective(a, b);
  }

  /** The cap: 99 is still written out, 100 is not. */
  lemma BadgeAtCap()
    ensures BadgeLabel(99) == "99" && BadgeLabel(100) == "99+"
    ensures BadgeLabel(7) == "7"
  {
    assert NatToDecimal(9) == "9";
  }
}

=== FILE: js_text.dfy ===
/**
 * The few JavaScript string built-ins the storefront's pages rely on,
 * stated over `string` (`seq<char>`):
 *  - `String.prototype.split` with a literal, non-empty separator,
 *  - `String.prototype.trim` and the truthiness of its result,
 *  - `String.prototype.toLowerCase`, restricted to ASCII letters,
 *  - `String(n)` for an integer `n` (decimal digits, a leading '-' when negative).
 */
module JsText {

  datatype Option<+T> = None | Some(value: T) {
    /** `x ?? d`, `x || d` for values whose only falsy form is absence */
    function GetOr(default: T): T {
      match this
      case Some(v) => v
      case None => default
    }
  }

  /** A JavaScript string that may be null or undefined is truthy when present and non-empty. */
  predicate Truthy(s: Option<string>) {
    s.Some? && s.value != ""
  }

  /** `a` is `b` with some elements left out, the rest kept in order */
  predicate IsSubsequence<T(==)>(a: seq<T>, b: seq<T>)
    decreases |b|
  {
    if b == [] then a == []
    else (a != [] && a[0] == b[0] && IsSubsequence(a[1..], b[1..])) || IsSubsequence(a, b[1..])
  }

  /** A subsequence of a suffix is a subsequence of the whole. */
  lemma {:induction false} SubsequenceOfSuffix<T>(a: seq<T>, b: seq<T>, k: nat)
    requires k <= |b| && IsSubsequence(a, b[k..])
    ensures IsSubsequence(a, b)
  {
    if k > 0 {
      assert b[1..][k - 1..] == b[k..];
      SubsequenceOfSuffix(a, b[1..], k - 1);
    }
  }

  /** Every element of a subsequence is an element of the sequence it was taken from. */
  lemma {:induction false} SubsequenceMembers<T>(a: seq<T>, b: seq<T>)
    requires IsSubsequence(a, b)
    ensures forall k :: 0 <= k < |a| ==> a[k] in b
    decreases |b|
  {
    if b != [] {
      if a != [] && a[0] == b[0] && IsSubsequence(a[1..], b[1..]) {
        SubsequenceMembers(a[1..], b[1..]);
        assert forall k :: 1 <= k < |a| ==> a[k] == a[1..][k - 1];
      } else {
        SubsequenceMembers(a, b[1..]);
      }
    }
  }

  // ---------------------------------------------------------------------------
  // Searching and splitting
  // ---------------------------------------------------------------------------

  /** `sep` occurs in `s` starting at position `i` */
  predicate OccursAt(s: string, sep: string, i: nat) {
    i + |sep| <= |s| && s[i..i + |sep|] == sep
  }

  /** `sep` occurs somewhere in `s` */
  predicate Contains(s: string, sep: string) {
    exists i: nat | i <= |s| :: OccursAt(s, sep, i)
  }

  /** `s.indexOf(c)` for one character */
  function IndexOfChar(s: string, c: char): (r: Option<nat>)
    ensures r.Some? ==> r.value < |s| && s[r.value] == c && c !in s[..r.value]
    ensures r.None? ==> c !in s
  {
    if s == [] then None
    else if s[0] == c then Some(0)
    else match IndexOfChar(s[1..], c)
      case None => None
      case Some(i) => Some(i + 1)
  }

  /** Text appended after the first `c`, or text holding no `c`, does not move where `c` is first found. */
  lemma IndexOfCharAppend(a: string, b: string, c: char)
    ensures IndexOfChar(a, c).Some? || c !in b ==> IndexOfChar(a + b, c) == IndexOfChar(a, c)
  {
    var r, q := IndexOfChar(a + b, c), IndexOfChar(a, c);
    if q.Some? {
      var i := q.value;
      assert (a + b)[i] == c;
    } else if c !in b {
      forall j | 0 <= j < |a + b|
        ensures (a + b)[j] != c
      {
        if j < |a| {
          assert (a + b)[j] == a[j];
        } else {
          assert (a + b)[j] == b[j - |a|];
        }
      }
    }
  }

  /** `s.indexOf(sep, from)`: the first occurrence of `sep` at or after `from` */
  function IndexOfFrom(s: string, sep: string, from: nat): (r: Option<nat>)
    requires from <= |s|
    ensures r.Some? ==> from <= r.value && OccursAt(s, sep, r.value)
    ensures r.Some? ==> forall j: nat :: from <= j < r.value ==> !OccursAt(s, sep, j)
    ensures r.None? ==> forall j: nat :: from <= j ==> !OccursAt(s, sep, j)
    decreases |s| - from
  {
    if OccursAt(s, sep, from) then Some(from)
    else if from == |s| then None
    else IndexOfFrom(s, sep, from + 1)
  }

  /**
   * `s.split(sep)` for a non-empty literal separator: the pieces between
   * the leftmost non-overlapping occurrences of `sep`, scanning left to right.
   * There is always at least one piece (`"".split(sep)` is `[""]`).
   */
  function Split(s: string, sep: string): (pieces: seq<string>)
    requires |sep| > 0
    ensures |pieces| >= 1
    decreases |s|
  {
    match IndexOfFrom(s, sep, 0)
    case None => [s]
    case Some(i) => [s[..i]] + Split(s[i + |sep|..], sep)
  }

  /** `pieces.join(sep)` */
  function Join(pieces: seq<string>, sep: string): string
    requires |pieces| >= 1
  {
    if |pieces| == 1 then pieces[0] else pieces[0] + sep + Join(pieces[1..], sep)
  }

  /** Splitting loses nothing: joining the pieces with the separator gives the input back. */
  lemma {:induction false} SplitJoin(s: string, sep: string)
    requires |sep| > 0
    ensures Join(Split(s, sep), sep) == s
    decreases |s|
  {
    var found := IndexOfFrom(s, sep, 0);
    if found.Some? {
      var i := found.value;
      var rest := s[i + |sep|..];
      var tail := Split(rest, sep);
      SplitJoin(rest, sep);
      var pieces := Split(s, sep);
      assert pieces == [s[..i]] + tail;
      assert pieces[1..] == tail;
      assert Join(pieces, sep) == s[..i] + sep + rest;
      assert s == s[..i] + s[i..i + |sep|] + rest;
    }
  }

  /** The text before the first occurrence of `sep` does not contain `sep`. */
  lemma BeforeFirstOccurrence(s: string, sep: string, i: nat)
    requires |sep| > 0 && IndexOfFrom(s, sep, 0) == Some(i)
    ensures !Contains(s[..i], sep)
  {
    var head := s[..i];
    forall j: nat | OccursAt(head, sep, j)
      ensures false
    {
      assert head[j..j + |sep|] == s[j..j + |sep|];
      assert OccursAt(s, sep, j);
    }
  }

  /** No piece of a split contains the separator: every occurrence was cut. */
  lemma {:induction false} SplitPiecesFree(s: string, sep: string)
    requires |sep| > 0
    ensures forall k :: 0 <= k < |Split(s, sep)| ==> !Contains(Split(s, sep)[k], sep)
    decreases |s|
  {
    match IndexOfFrom(s, sep, 0)
    case None =>
      assert Split(s, sep) == [s];
    case Some(i) =>
      var rest := s[i + |sep|..];
      var tail := Split(rest, sep);
      SplitPiecesFree(rest, sep);
      BeforeFirstOccurrence(s, sep, i);
      var pieces := Split(s, sep);
      assert pieces == [s[..i]] + tail;
      forall k | 0 < k < |pieces|
        ensures !Contains(pieces[k], sep)
      {
        assert pieces[k] == tail[k - 1];
      }
  }

  // ---------------------------------------------------------------------------
  // Whitespace and trim
  // ---------------------------------------------------------------------------

  /** ECMAScript WhiteSpace and LineTerminator code points, the ones `trim` removes */
  predicate IsWhitespace(c: char) {
    c == '\t' || c == '\n' || c == '\U{000B}' || c == '\U{000C}' || c == '\r' || c == ' ' ||
    c == '\U{00A0}' || c == '\U{1680}' || ('\U{2000}' <= c <= '\U{200A}') ||
    c == '\U{2028}' || c == '\U{2029}' || c == '\U{202F}' || c == '\U{205F}' ||
    c == '\U{3000}' || c == '\U{FEFF}'
  }

  /** Every character of `s` is whitespace (the empty string included) */
  predicate IsBlank(s: string) {
    forall k :: 0 <= k < |s| ==> IsWhitespace(s[k])
  }

  function TrimStart(s: string): string {
    if |s| > 0 && IsWhitespace(s[0]) then TrimStart(s[1..]) else s
  }

  function TrimEnd(s: string): string {
    if |s| > 0 && IsWhitespace(s[|s| - 1]) then TrimEnd(s[..|s| - 1]) else s
  }

  /** `s.trim()` */
  function Trim(s: string): string {
    TrimEnd(TrimStart(s))
  }

  lemma {:induction false} TrimStartEmpty(s: string)
    ensures TrimStart(s) == [] <==> IsBlank(s)
  {
    if |s| > 0 && IsWhitespace(s[0]) {
      TrimStartEmpty(s[1..]);
      assert forall k :: 0 < k < |s| ==> s[k] == s[1..][k - 1];
    }
  }

  lemma {:induction false} TrimEndEmpty(s: string)
    ensures TrimEnd(s) == [] <==> IsBlank(s)
  {
    if |s| > 0 && IsWhitespace(s[|s| - 1]) {
      TrimEndEmpty(s[..|s| - 1]);
    }
  }

  lemma {:induction false} TrimStartBlank(s: string)
    ensures IsBlank(TrimStart(s)) <==> IsBlank(s)
  {
    if |s| > 0 && IsWhitespace(s[0]) {
      TrimStartBlank(s[1..]);
      assert forall k :: 0 < k < |s| ==> s[k] == s[1..][k - 1];
    }
  }

  /** `s.trim()` is falsy (the empty string) exactly when `s` is all whitespace. */
  lemma TrimEmptyIffBlank(s: string)
    ensures Trim(s) == [] <==> IsBlank(s)
  {
    TrimEndEmpty(TrimStart(s));
    TrimStartBlank(s);
  }

  // ---------------------------------------------------------------------------
  // Case
  // ---------------------------------------------------------------------------

  function LowerChar(c: char): char {
    if 'A' <= c <= 'Z' then (c as int - 'A' as int + 'a' as int) as char else c
  }

  /** `s.toLowerCase()` on the ASCII letters */
  function ToLower(s: string): (r: string)
    ensures |r| == |s|
    ensures forall k :: 0 <= k < |s| ==> r[k] == LowerChar(s[k])
  {
    if s == [] then [] else [LowerChar(s[0])] + ToLower(s[1..])
  }

  // ---------------------------------------------------------------------------
  // Decimal rendering of integers
  // ---------------------------------------------------------------------------

  predicate IsDigit(c: char) {
    '0' <= c <= '9'
  }

  function DigitChar(d: nat): (c: char)
    requires d < 10
    ensures IsDigit(c)
  {
    ('0' as int + d) as char
  }

  function DigitValue(c: char): nat
    requires IsDigit(c)
  {
    c as int - '0' as int
  }

  /** The decimal digits of `n`, most significant first, without leading zeros */
  function NatToDecimal(n: nat): (s: string)
    ensures |s| >= 1
    ensures forall k :: 0 <= k < |s| ==> IsDigit(s[k])
    ensures |s| > 1 ==> s[0] != '0'
    ensures (n < 10) <==> (|s| == 1)
  {
    if n < 10 then [DigitChar(n)] else NatToDecimal(n / 10) + [DigitChar(n % 10)]
  }

  /** `String(n)` for an integer-valued number */
  function IntToString(n: int): string {
    if n < 0 then "-" + NatToDecimal(-n) else NatToDecimal(n)
  }

  /** Reads back a string of decimal digits */
  function ParseDecimal(s: string): nat
    requires forall k :: 0 <= k < |s| ==> IsDigit(s[k])
  {
    if s == [] then 0 else ParseDecimal(s[..|s| - 1]) * 10 + DigitValue(s[|s| - 1])
  }

  /** Decimal rendering is faithful: reading the digits back gives the number. */
  lemma {:induction false} DecimalRoundTrip(n: nat)
    ensures ParseDecimal(NatToDecimal(n)) == n
  {
    var s := NatToDecimal(n);
    if n >= 10 {
      DecimalRoundTrip(n / 10);
      assert s[..|s| - 1] == NatToDecimal(n / 10);
    }
  }

  /** Distinct numbers are rendered as distinct strings. */
  lemma DecimalInjective(a: nat, b: nat)
    requires NatToDecimal(a) == NatToDecimal(b)
    ensures a == b
  {
    DecimalRoundTrip(a);
    DecimalRoundTrip(b);
  }

  /** Numbers below 100 have at most two digits, and at least 100 take three or more. */
  lemma {:induction false} DecimalLength(n: nat)
    ensures n < 100 <==> |NatToDecimal(n)| <= 2
  {
    if n >= 10 {
      DecimalLength(n / 10);
    }
  }
}

=== FILE: product_card.dfy ===
/**
 * The product card: what it shows for the values its headless logic hands
 * it (the matching variant, stock, the current price and compare-at price,
 * the selection and the availability test), and what its buttons do.
 * That logic itself is not modelled: its results are the fields of `CardLogic`.
 */
module ProductCard {
  import opened JsText
  import opened Catalog

  // ---------------------------------------------------------------------------
  // The description with its markup removed
  // ---------------------------------------------------------------------------

  /**
   * When `s` starts with a tag — a '<', then no '>', then a '>' — the tag's
   * length; otherwise nothing.
   */
  function TagLength(s: string): (n: Option<nat>)
    ensures n.Some? ==> 2 <= n.value <= |s| && s[0] == '<' && s[n.value - 1] == '>'
    ensures n.Some? ==> '>' !in s[1..n.value - 1]
    ensures n.None? && s != [] && s[0] == '<' ==> '>' !in s[1..]
  {
    if s == [] || s[0] != '<' then None
    else match IndexOfChar(s[1..], '>')
      case None => None
      case Some(j) => Some(j + 2)
  }

  /**
   * `s.replace(/<[^>]*>/g, '')`: scanning left to right, every '<' that has a
   * '>' somewhere after it starts a tag running to the first such '>', and
   * the tag is removed; every other character is kept.
   */
  function StripTags(s: string): (r: string)
    ensures |r| <= |s|
    decreases |s|
  {
    if s == [] then []
    else match TagLength(s)
      case Some(n) => StripTags(s[n..])
      case None => [s[0]] + StripTags(s[1..])
  }

  /** No '<' in `s` is followed, anywhere later, by a '>': nothing left that the pattern matches */
  predicate TagFree(s: string) {
    forall i, j :: 0 <= i < j < |s| && s[i] == '<' ==> s[j] != '>'
  }

  /** Stripping only removes characters: the result is the input with some characters left out, in order. */
  lemma {:induction false} StripKeepsOrder(s: string)
    ensures IsSubsequence(StripTags(s), s)
    decreases |s|
  {
    if s != [] {
      match TagLength(s)
      case Some(n) =>
        StripKeepsOrder(s[n..]);
        SubsequenceOfSuffix(StripTags(s[n..]), s, n);
      case None =>
        StripKeepsOrder(s[1..]);
        var r := StripTags(s);
        assert r == [s[0]] + StripTags(s[1..]);
        assert r[1..] == StripTags(s[1..]);
    }
  }

  /** After stripping, no tag is left. */
  lemma {:induction false} StripLeavesNoTag(s: string)
    ensures TagFree(StripTags(s))
    decreases |s|
  {
    if s != [] {
      match TagLength(s)
      case Some(n) =>
        StripLeavesNoTag(s[n..]);
      case None =>
        var t := StripTags(s[1..]);
        var r := StripTags(s);
        StripLeavesNoTag(s[1..]);
        assert r == [s[0]] + t;
        if s[0] == '<' {
          // the lone '<' is kept only because no '>' follows it, and the rest is taken from what follows
          StripKeepsOrder(s[1..]);
          SubsequenceMembers(t, s[1..]);
          forall j | 0 < j < |r|
            ensures r[j] != '>'
          {
            assert r[j] == t[j - 1];
          }
        }
        forall i, j | 0 <= i < j < |r| && r[i] == '<'
          ensures r[j] != '>'
        {
          if i > 0 {
            assert r[i] == t[i - 1] && r[j] == t[j - 1];
          }
        }
    }
  }

  /** Text without tags comes through unchanged. */
  lemma {:induction false} TagFreeUnchanged(s: string)
    requires TagFree(s)
    ensures StripTags(s) == s
    decreases |s|
  {
    if s != [] {
      if s[0] == '<' {
        forall j | 0 <= j < |s[1..]|
          ensures s[1..][j] != '>'
        {
          assert s[1..][j] == s[j + 1];
        }
      }
      assert TagLength(s).None?;
      assert TagFree(s[1..]) by {
        forall i, j | 0 <= i < j < |s[1..]| && s[1..][i] == '<'
          ensures s[1..][j] != '>'
        {
          assert s[i + 1] == '<';
        }
      }
      TagFreeUnchanged(s[1..]);
    }
  }

  /** Stripping twice is stripping once. */
  lemma StripIdempotent(s: string)
    ensures StripTags(StripTags(s)) == StripTags(s)
  {
    StripLeavesNoTag(s);
    TagFreeUnchanged(StripTags(s));
  }

  /** A description with no '<' at all is shown as written. */
  lemma PlainTextUnchanged(s: string)
    requires '<' !in s
    ensures StripTags(s) == s
  {
    TagFreeUnchanged(s);
  }

  /**
   * A tag right after text with no '<' in it is removed whole, from its '<' to
   * the first '>', and what follows it is stripped on its own.
   */
  lemma {:induction false} StripClosedTag(x: string, t: string, y: string)
    requires '<' !in x && '>' !in t
    ensures StripTags(x + "<" + t + ">" + y) == x + StripTags(y)
    decreases |x|
  {
    var s := x + "<" + t + ">" + y;
    if x == [] {
      var u := s[1..];
      assert u == t + ">" + y && u[|t|] == '>';
      var j := IndexOfChar(u, '>');
      assert TagLength(s) == Some(|t| + 2);
      assert s[|t| + 2..] == y;
    } else {
      assert s[0] == x[0];
      assert s[1..] == x[1..] + "<" + t + ">" + y;
      StripClosedTag(x[1..], t, y);
    }
  }

  /**
   * When no '>' follows, no tag can reach past the end of `a`: the head is
   * stripped on its own and the tail after it.
   */
  lemma {:induction false} StripBeforeNoClose(a: string, rest: string)
    requires '>' !in rest
    ensures StripTags(a + rest) == StripTags(a) + StripTags(rest)
    decreases |a|
  {
    if a != [] {
      var s := a + rest;
      assert s[0] == a[0];
      assert s[1..] == a[1..] + rest;
      IndexOfCharAppend(a[1..], rest, '>');
      assert TagLength(s) == TagLength(a);
      match TagLength(a)
      case Some(n) =>
        assert s[n..] == a[n..] + rest;
        StripBeforeNoClose(a[n..], rest);
      case None =>
        StripBeforeNoClose(a[1..], rest);
    } else {
      assert a + rest == rest;
    }
  }

  /** A '<' with no '>' after it is not a tag, and stays, whatever comes before it. */
  lemma UnclosedAngleKept(before: string, after: string)
    requires '>' !in after
    ensures StripTags(before + "<" + after) == StripTags(before) + "<" + after
    ensures '<' !in before ==> StripTags(before + "<" + after) == before + "<" + after
  {
    var tail := "<" + after;
    assert before + "<" + after == before + tail;
    assert TagFree(tail) by {
      forall i, j | 0 <= i < j < |tail| && tail[i] == '<'
        ensures tail[j] != '>'
      {
        assert tail[j] == after[j - 1];
      }
    }
    TagFreeUnchanged(tail);
    StripBeforeNoClose(before, tail);
    if '<' !in before {
      PlainTextUnchanged(before);
    }
  }

  /** The card's description paragraph: present only for a truthy description, with its tags removed */
  function ShownDescription(description: Option<string>): (shown: Option<string>)
    ensures shown.Some? <==> Truthy(description)
    ensures shown.Some? ==> shown.value == StripTags(description.value)
    ensures shown.Some? ==> TagFree(shown.value) && IsSubsequence(shown.value, description.value)
  {
    if Truthy(description) then
      StripLeavesNoTag(description.value);
      StripKeepsOrder(description.value);
      Some(StripTags(description.value))
    else None
  }

  // ---------------------------------------------------------------------------
  // Option values
  // ---------------------------------------------------------------------------

  /** A product option (size, colour, …) with its values and, for colours, their swatches */
  datatype OptionGroup = OptionGroup(
    id: string,
    name: string,
    values: seq<string>,
    swatches: Option<map<string, string>>)

  /** The values the card offers for option `name`: those the availability test accepts, in their order */
  function VisibleValues(name: string, values: seq<string>, isAvailable: (string, string) -> bool): (r: seq<string>)
    ensures IsSubsequence(r, values)
    ensures forall k :: 0 <= k < |r| ==> isAvailable(name, r[k])
    ensures forall k :: 0 <= k < |values| && isAvailable(name, values[k]) ==> values[k] in r
  {
    if values == [] then []
    else if isAvailable(name, values[0]) then
      var rest := VisibleValues(name, values[1..], isAvailable);
      assert forall k :: 1 <= k < |values| ==> values[k] == values[1..][k - 1];
      assert ([values[0]] + rest)[1..] == rest;
      [values[0]] + rest
    else
      var rest := VisibleValues(name, values[1..], isAvailable);
      assert forall k :: 1 <= k < |values| ==> values[k] == values[1..][k - 1];
      rest
  }

  /** The filter drops no occurrence: an accepted value is offered as often as it occurs, any other never. */
  lemma {:induction false} VisibleValuesCounts(name: string, values: seq<string>, isAvailable: (string, string) -> bool)
    ensures forall v ::
      multiset(VisibleValues(name, values, isAvailable))[v] == if isAvailable(name, v) then multiset(values)[v] else 0
  {
    if values != [] {
      VisibleValuesCounts(name, values[1..], isAvailable);
      assert values == [values[0]] + values[1..];
    }
  }


  /** How a value's button is drawn: highlighted, faded, or plain */
  datatype Look = Chosen | Faded | Plain

  /**
   * A value is chosen when the selection for its option is exactly that
   * value; it is faded when the option has a truthy selection that is some
   * other value. Colour swatches and text buttons follow the same rule.
   */
  function ValueLook(selected: map<string, string>, name: string, val: string): (look: Look)
    ensures look == Chosen <==> name in selected && selected[name] == val
    ensures look == Faded <==> name in selected && selected[name] != "" && selected[name] != val
  {
    if name in selected && selected[name] == val then Chosen
    else if name in selected && selected[name] != "" then Faded
    else Plain
  }

  /**
   * Within one option, all chosen buttons show the same value; once a value
   * is selected every other value is faded; and with no truthy selection
   * nothing is faded.
   */
  lemma LooksOfOneOption(selected: map<string, string>, name: string, values: seq<string>)
    ensures forall a, b ::
      (a in values && b in values && ValueLook(selected, name, a) == Chosen
        && ValueLook(selected, name, b) == Chosen) ==> a == b
    ensures name in selected && selected[name] != "" ==>
      forall v :: v in values ==> (ValueLook(selected, name, v) == Faded <==> v != selected[name])
    ensures !(name in selected && selected[name] != "") ==>
      forall v :: v in values ==> ValueLook(selected, name, v) != Faded
  {
  }

  /**
   * The colour drawn for a value: only for an option whose name lower-cases
   * to "color", and only when its swatch for the value is truthy.
   */
  function Swatch(opt: OptionGroup, val: string): (colour: Option<string>)
    ensures colour.Some? <==>
      (ToLower(opt.name) == "color" && opt.swatches.Some?
        && val in opt.swatches.value && opt.swatches.value[val] != "")
    ensures colour.Some? ==> colour.value == opt.swatches.value[val]
  {
    if ToLower(opt.name) == "color" && opt.swatches.Some? && val in opt.swatches.value
      && opt.swatches.value[val] != "" then Some(opt.swatches.value[val])
    else None
  }

  /** Whether an option name is "color" does not depend on its letter case. */
  lemma SwatchIgnoresCase(opt: OptionGroup, other: string, val: string)
    requires ToLower(other) == ToLower(opt.name)
    ensures Swatch(opt.(name := other), val) == Swatch(opt, val)
  {
  }

  lemma ColourNames()
    ensures ToLower("Color") == "color" && ToLower("COLOR") == "color"
    ensures ToLower("Colour") != "color"
  {
    assert ToLower("Colour")[4] == 'u';
  }

  /** A value's button: a round swatch, or a text button; both select the value when clicked */
  datatype ValueButton =
    | SwatchButton(value: string, colour: string, look: Look, caption: string)
    | TextButton(value: string, look: Look, caption: string, pressed: bool)

  function ButtonFor(opt: OptionGroup, selected: map<string, string>, val: string): (b: ValueButton)
    ensures b.value == val && b.caption == opt.name + ": " + val
    ensures b.SwatchButton? <==> Swatch(opt, val).Some?
    ensures b.SwatchButton? ==> b.colour == Swatch(opt, val).value
    ensures b.look == ValueLook(selected, opt.name, val)
    ensures b.TextButton? ==> (b.pressed <==> b.look == Chosen)
  {
    var look := ValueLook(selected, opt.name, val);
    match Swatch(opt, val)
    case Some(c) => SwatchButton(val, c, look, opt.name + ": " + val)
    case None => TextButton(val, look, opt.name + ": " + val, look == Chosen)
  }

  /** One row of value buttons per option, each row listing the option's available values in order */
  function OptionRow(opt: OptionGroup, selected: map<string, string>, isAvailable: (string, string) -> bool)
    : (row: seq<ValueButton>)
    ensures |row| == |VisibleValues(opt.name, opt.values, isAvailable)|
    ensures forall k :: 0 <= k < |row| ==>
      row[k] == ButtonFor(opt, selected, VisibleValues(opt.name, opt.values, isAvailable)[k])
  {
    var vals := VisibleValues(opt.name, opt.values, isAvailable);
    seq(|vals|, k requires 0 <= k < |vals| => ButtonFor(opt, selected, vals[k]))
  }

  // ---------------------------------------------------------------------------
  // Price, badges and the add button
  // ---------------------------------------------------------------------------

  /** The struck-through compare-at price: shown when it is truthy (present and non-zero) and above the price */
  function ShowCompareAt(compareAt: Option<int>, price: int): (shown: bool)
    ensures shown ==> compareAt.Some? && compareAt.value != 0 && compareAt.value > price
    ensures compareAt.Some? && compareAt.value > price && compareAt.value != 0 ==> shown
  {
    compareAt.Some? && compareAt.value != 0 && compareAt.value > price
  }

  /** For a price that is not negative, the non-zero test adds nothing: the rule is simply "above the price". */
  lemma CompareAtAbovePrice(compareAt: Option<int>, price: int)
    requires price >= 0
    ensures ShowCompareAt(compareAt, price) <==> compareAt.Some? && compareAt.value > price
  {
  }

  datatype Badge = Discount(percent: int) | Featured | OutOfStock

  /** The badges over the picture, top to bottom: a truthy discount, featured, out of stock */
  function Badges(discount: Option<int>, featured: bool, inStock: bool): (badges: seq<Badge>)
    ensures OutOfStock in badges <==> !inStock
    ensures Featured in badges <==> featured
    ensures (discount.Some? && discount.value != 0) <==> (badges != [] && badges[0].Discount?)
    ensures badges != [] && badges[0].Discount? ==> badges[0].percent == discount.value
    ensures !inStock ==> badges[|badges| - 1] == OutOfStock
    ensures |badges| == (if discount.Some? && discount.value != 0 then 1 else 0)
      + (if featured then 1 else 0) + (if inStock then 0 else 1)
  {
    (if discount.Some? && discount.value != 0 then [Discount(discount.value)] else [])
    + (if featured then [Featured] else [])
    + (if inStock then [] else [OutOfStock])
  }

  /** What the add button calls, in order */
  datatype Callback = OnAddToCartSuccess | HandleAddToCart

  datatype AddButton = AddButton(disabled: bool, caption: string, onClick: seq<Callback>)

  /**
   * The add button: disabled exactly when the logic says the product cannot
   * be added; labelled "Add" exactly when in stock; a click reports success
   * first and then adds to the cart.
   */
  function AddButtonFor(canAddToCart: bool, inStock: bool): (b: AddButton)
    ensures b.disabled <==> !canAddToCart
    ensures b.caption == "Add" <==> inStock
    ensures !inStock ==> b.caption == "Out of stock"
    ensures |b.onClick| == 2 && b.onClick[0] == OnAddToCartSuccess && b.onClick[1] == HandleAddToCart
  {
    AddButton(!canAddToCart, if inStock then "Add" else "Out of stock", [OnAddToCartSuccess, HandleAddToCart])
  }

  /** The label and the enabled state are separate: an in-stock product that cannot be added shows a disabled "Add". */
  lemma LabelIndependentOfEnabled()
    ensures AddButtonFor(false, true) == AddButton(true, "Add", [OnAddToCartSuccess, HandleAddToCart])
    ensures AddButtonFor(true, false).caption == "Out of stock" && !AddButtonFor(true, false).disabled
  {
  }

  // ---------------------------------------------------------------------------
  // The whole card
  // ---------------------------------------------------------------------------

  /** What the headless product logic hands the card */
  datatype CardLogic = CardLogic(
    product: Product,
    matchingVariant: Option<Variant>,
    discountPercentage: Option<int>,
    inStock: bool,
    canAddToCart: bool,
    hasVariants: bool,
    options: Option<seq<OptionGroup>>,
    selected: map<string, string>,
    isOptionValueAvailable: (string, string) -> bool,
    currentPrice: int,
    currentCompareAt: Option<int>)

  datatype CardView = CardView(
    link: string,
    image: Option<string>,
    badges: seq<Badge>,
    title: string,
    description: Option<string>,
    optionRows: seq<seq<ValueButton>>,
    price: int,
    compareAt: Option<int>,
    button: AddButton)

  function Card(logic: CardLogic): (v: CardView)
    ensures v.link == "/products/" + logic.product.slug
    ensures v.image == ImageChoice(logic.matchingVariant, logic.product.images)
    ensures v.description == ShownDescription(logic.product.description)
    ensures v.optionRows != [] ==> logic.hasVariants && logic.options.Some?
    ensures logic.hasVariants && logic.options.Some? ==> |v.optionRows| == |logic.options.value|
    ensures forall k :: 0 <= k < |v.optionRows| ==>
      v.optionRows[k] == OptionRow(logic.options.value[k], logic.selected, logic.isOptionValueAvailable)
    ensures v.badges == Badges(logic.discountPercentage, logic.product.featured, logic.inStock)
    ensures v.title == logic.product.title && v.price == logic.currentPrice
    ensures v.compareAt.Some? <==> ShowCompareAt(logic.currentCompareAt, logic.currentPrice)
    ensures v.compareAt.Some? ==> v.compareAt == logic.currentCompareAt
    ensures v.button == AddButtonFor(logic.canAddToCart, logic.inStock)
  {
    var rows :=
      if logic.hasVariants && logic.options.Some? then
        var opts := logic.options.value;
        seq(|opts|, k requires 0 <= k < |opts| =>
          OptionRow(opts[k], logic.selected, logic.isOptionValueAvailable))
      else [];
    CardView(
      "/products/" + logic.product.slug,
      ImageChoice(logic.matchingVariant, logic.product.images),
      Badges(logic.discountPercentage, logic.product.featured, logic.inStock),
      logic.product.title,
      ShownDescription(logic.product.description),
      rows,
      logic.currentPrice,
      if ShowCompareAt(logic.currentCompareAt, logic.currentPrice) then logic.currentCompareAt else None,
      AddButtonFor(logic.canAddToCart, logic.inStock))
  }
}
